=== FILE: README.md ===
# Local RAG application: chunking, prompt assembly and ingestion, in Dafny

This project models the deterministic core of a small retrieval-augmented
generation application. The application is a Streamlit script on top of an
Ollama server and a Qdrant vector store. The model covers:

- **Chunker** (`chunk_text`): the character-window chunker. The overlap is
  clamped to `min(overlap, chunk_size - 1)`. A window of `chunk_size` code
  points slides forward by `chunk_size - overlap'`. A window is dropped when
  it strips to nothing, and the loop breaks once the cursor passes the end.
  The loop is given both as a recursive definition (`ChunkText`) and as a
  statement-for-statement method (`ChunkTextLoop`) proved equal to it.
- **PyText**: the two pieces of Python's `str` the chunker relies on:
  `isspace` on one code point, and argument-less `strip`.
- **DocumentProcessor** (`process_document`, `create_chunk_metadata`): the
  stripped text is chunked, and every chunk is embedded and given its
  six-field metadata record. Embedding is a parameter that may fail. A
  failure on any chunk aborts the whole document.
- **Prompt** (`build_rag_prompt`): the chunks are joined with blank lines and
  placed, with the question, into a fixed instruction template.
- **Streaming**: the line loop of `generate_answer_streaming`, over lines
  abstracted to `Empty | Malformed | Obj(response, done)`, together with the
  `answer += chunk` accumulation on the query page.
- **App**: the pure parts of the application script.
  - The per-file upload loop. Upsert is a parameter that either accepts a
    batch, which is then appended to the store, or raises with a message.
  - The empty-hits check and the extraction of context chunks from hit
    payloads.
  - The displayed chunk number and the 500-code-point source preview.

Strings are sequences of code points, as Python's are, so `|s|` is
`len(s)` and slices are Python slices of code points.

**Where the loop differs from what one might expect.** One might expect a
text of at most `chunk_size` code points to give exactly one chunk, namely
the text itself. For a stripped text, which is what `process_document`
passes to the chunker, the loop only does so when the text is also no
longer than one stride, `chunk_size - overlap'`. For a stripped text
between one stride and one window long, the cursor after the first window
still lands inside the text. The loop therefore cuts a second window
`text[step:]`, which repeats the tail of the first chunk. With the defaults
500/50 that is exactly two chunks; with a larger overlap the cursor can
land inside the text more than twice, giving more chunks. The model
follows the code: `Chunker.ShortTextIsOneChunk` states the one-chunk case
with its real condition, and `Chunker.ShortTextRepeatsItsTail` states the
two-chunk case.

## Model

| member | source | states |
|---|---|---|
| PyText.Strip | document_processor.py:39-44 | `strip()` never lengthens its input; it is empty exactly when the input is all whitespace; otherwise it starts and ends with a non-whitespace code point |
| PyText.StripIsSlice | document_processor.py:39-44 | the stripped text is the contiguous slice of the input that starts right after the leading whitespace |
| PyText.StripIdempotent | document_processor.py:39-44 | stripping twice is stripping once, so the text the chunker receives is a fixed point of `strip` |
| Chunker.EffectiveOverlap | document_processor.py:65 | the clamped overlap is at most the requested overlap and below `chunk_size`, and equals one of `overlap` and `chunk_size - 1` |
| Chunker.Stride | document_processor.py:65-79 | the cursor advances by at least 1 per iteration, so the loop terminates; the stride is `chunk_size - overlap` when the overlap is below the size and 1 otherwise, and never exceeds the size when the overlap is non-negative |
| Chunker.Window | document_processor.py:71-72 | the window at a cursor inside the text is the text from that cursor, `chunk_size` code points long or clipped at the end |
| Chunker.ChunkText | document_processor.py:59-85 | `chunk_text`: an empty text gives no chunk, and every chunk holds 1 to `chunk_size` code points, at least one of them not whitespace |
| Chunker.Cursors | document_processor.py:70-83 | every visited cursor lies in `[start, len(text))`, and the first one is `start` itself |
| Chunker.CursorsArithmetic | document_processor.py:70-83 | cursor `k` sits at `start + k * step`, and the last cursor is the last multiple of the stride still inside the text |
| Chunker.CursorsAreMultiples | document_processor.py:70-83 | the loop visits exactly `0, step, 2*step, ...` below `len(text)`, and visits nothing on an empty text |
| Chunker.SkipBlank | document_processor.py:75-76 | a whitespace-only window contributes nothing, and the result is what the loop collects from the next cursor |
| Chunker.KeepWindow | document_processor.py:75-76 | a window with a non-whitespace code point is kept, unstripped, ahead of everything collected from the next cursor |
| Chunker.RestKeep | document_processor.py:72-76 | when the sliced window strips to something, it is the next thing the loop collects |
| Chunker.RestSkip | document_processor.py:72-76 | when the sliced window strips to nothing, the loop collects from the next cursor what it would have collected from this one |
| Chunker.Advance | document_processor.py:71-79 | one iteration keeps the loop invariant: the chunks collected so far, followed by what the loop collects from the new cursor, are the whole result |
| Chunker.StripIsTruthy | document_processor.py:75 | `chunk.strip()` is truthy exactly when the chunk holds a non-whitespace code point |
| Chunker.ChunkTextLoop | document_processor.py:65-85 | the imperative loop, with its early `break`, returns exactly the chunks of the recursive definition |
| Chunker.ChunksFromIncreasing | document_processor.py:70-79 | the chunks kept from a cursor on lie at strictly increasing offsets no earlier than that cursor; each one is the window at its offset and is not blank |
| Chunker.ChunkTextShape | document_processor.py:70-79 | every chunk is the unstripped window `text[s:s+chunk_size]` at an offset `s < len(text)`; it has 1 to `chunk_size` code points and a non-whitespace one; offsets strictly increase |
| Chunker.ChunksFromKeptCursors | document_processor.py:70-79 | from a cursor on, a visited cursor starts a chunk if and only if its window is not blank, and every chunk starts at a visited cursor |
| Chunker.ChunkTextKeepsNonBlankWindows | document_processor.py:75-76 | only whitespace-only windows are dropped: an offset the loop visits starts a chunk if and only if its window is not blank, and no chunk starts anywhere else |
| Chunker.ShortTextIsOneChunk | document_processor.py:70-85 | an empty text gives no chunk; a text no longer than one window and one stride gives itself when it is not blank, and nothing otherwise |
| Chunker.ShortTextRepeatsItsTail | document_processor.py:70-85 | a text longer than one stride, but no longer than one window and no longer than two strides, whose tail from the stride on is not blank gives two chunks: the text, then that tail |
| Chunker.WindowsOverlap | document_processor.py:71-79 | the window at `s`, read from offset `step`, is the start of the window at `s + step`, both clipped at the end of the text |
| Chunker.ConsecutiveChunksOverlap | document_processor.py:71-79 | two chunks cut one stride apart agree where they overlap: the first from `step` on is the head of the second, `len(first) - step` code points long, which is the clamped overlap when the first chunk is full length and less when it is clipped at the end of the text |
| Chunker.ChunksFromCover | document_processor.py:71-79 | with a stride no larger than the window, every non-whitespace code point at or after a cursor lies in a chunk kept from that cursor on |
| Chunker.ChunkTextCoversText | document_processor.py:71-79 | with `overlap >= 0`, every non-whitespace code point of the text lies inside some returned chunk |
| Chunker.ReassembleFrom | document_processor.py:70-85 | with no blank window from a cursor on, the first `step` code points of each chunk, concatenated, give back the text from that cursor |
| Chunker.ChunkTextReassembles | document_processor.py:70-85 | round trip: with `overlap >= 0` and no blank window, concatenating the first `chunk_size - overlap'` code points of each chunk gives back the text exactly |
| Chunker.DefaultsOn1200Characters | document_processor.py:59-85 | with the default 500/50, a 1200-code-point text without whitespace gives chunks at offsets 0, 450 and 900, of lengths 500, 500 and 300, with the last 50 code points of the first chunk equal to the first 50 of the second |
| DocumentProcessor.ReadUploadedFile | document_processor.py:12-44 | an extraction error propagates with its message; the text handed on is the extracted text stripped, and it is empty exactly when extraction produced only whitespace |
| DocumentProcessor.CreateChunkMetadata | document_processor.py:88-115 | the record files the chunk text under `text`, the file name under `source_file`, the index and count under `chunk_index` and `total_chunks`, the clock reading under `upload_timestamp` and the MIME type under `file_type` |
| DocumentProcessor.EmbedAll | document_processor.py:142-145 | embedding the chunks in order succeeds if and only if every chunk embeds; vector `i` is then the embedding of chunk `i`; a failure carries the message of the first chunk that fails |
| DocumentProcessor.ProcessDocument | document_processor.py:88-157 | an extraction error propagates; a blank text gives `([], [], 0)`; otherwise the call succeeds exactly when every chunk of the stripped text embeds; vectors, metadata and count then agree in length with the chunks; vector `i` embeds chunk `i`; record `i` holds the six fields `create_chunk_metadata` builds for chunk `i` |
| DocumentProcessor.StrippedTextHasChunk | document_processor.py:130-136 | a text that is not blank yields at least one chunk once stripped |
| DocumentProcessor.NoChunksOnlyForBlankText | document_processor.py:130-136 | a processed document reports zero chunks if and only if extraction produced only whitespace |
| DocumentProcessor.MetadataIsConsistent | document_processor.py:142-157 | every record of one document names the same file and type, has `chunk_index == i < total_chunks == count`, and holds a non-blank text of at most `chunk_size` code points |
| Prompt.JoinAt | embedding.py:102 | in the joined context, chunk `k` sits verbatim at the offset of all earlier chunks plus one separator each |
| Prompt.JoinSepAt | embedding.py:102 | between consecutive chunks of the joined context there is exactly one `"\n\n"` separator |
| Prompt.JoinLength | embedding.py:102 | the joined context is as long as the chunks plus one separator between each consecutive pair |
| Prompt.JoinSmall | embedding.py:102 | no chunks give an empty context; a single chunk gives itself |
| Prompt.Join | embedding.py:102 | the joined context starts with the first chunk and ends with the last one |
| Prompt.Fill | embedding.py:103-109 | the template holds its preamble at 0, the context right after it, then the question label, the question, and the answer cue at the very end, and nothing else |
| Prompt.BuildRagPrompt | embedding.py:91-109 | the prompt starts with the fixed instructions and `Context:` label, holds the joined context, the question label and the question in that order, and ends with `"\n\nAnswer:"` |
| Prompt.ChunkInPrompt | embedding.py:102-108 | every chunk appears verbatim in the prompt, at its offset in the context after the preamble |
| Prompt.PromptRoundTrip | embedding.py:102-109 | knowing only the question's length, the question and the joined context are read back from the prompt, so no escaping or truncation takes place |
| Prompt.PromptDeterminesPair | embedding.py:102-109 | two prompts built from questions of the same length are equal only when the questions are equal and the joined contexts are equal |
| Prompt.PromptSplitIsAmbiguous | embedding.py:102-109 | nothing is escaped: the context `x` with the question `y\n\nQuestion: z` gives the same prompt as the context `x\n\nQuestion: y` with the question `z`, so without the question's length the prompt does not determine the pair |
| Streaming.Fragments | embedding.py:75-88 | every yielded fragment is non-empty, and there are at most as many fragments as lines |
| Streaming.Consumed | embedding.py:75-88 | the loop never reads more lines than the stream holds, and reads at least one when there is one |
| Streaming.ConsumedStopsAtFirstDone | embedding.py:83-85 | the loop reads up to and including the first `done` line; no earlier line is `done`; all lines are read when none is |
| Streaming.FragmentsAreResponsesUntilDone | embedding.py:75-85 | what is yielded is exactly the non-empty `response` values of the lines read, in line order |
| Streaming.FragmentsAppend | embedding.py:75-88 | reading `a` then `b` yields what `a` yields, followed by what `b` yields only when `a` held no `done` line |
| Streaming.NoiseIsSkipped | embedding.py:76-88 | an empty or malformed line anywhere in the stream changes nothing that is yielded |
| Streaming.StopsAtDone | embedding.py:79-85 | on the first `done` line its non-empty response is still yielded, and nothing from later lines is |
| Streaming.StreamAnswer | embedding.py:75-88 | the imperative loop yields exactly the fragments, reads exactly the consumed lines, and the page's accumulated answer is their concatenation |
| Streaming.Concat | app.py:146-150 | the answer built by `answer += chunk` starts with the first fragment and ends with the last one |
| App.Zip | vectorstore.py:44 | pairing vectors with payloads stops at the shorter list |
| App.ZipAt | vectorstore.py:43-52 | point `i` carries vector `i` and payload `i` |
| App.IngestFile | app.py:60-76 | an accepted file appends its points to the store and adds its count; any other file leaves both alone and adds exactly one entry: `"❌ name: msg"` with the exception's message when processing raised or the upsert raised, `"⚠️ name: No text extracted"` on zero chunks |
| App.FailedEntry | app.py:75-76 | the entry for a raising file starts with a cross mark, and the file name and the exception's message are read back from it |
| App.EmptyEntry | app.py:72-73 | the entry for a file without chunks starts with a warning sign, and the file name is read back from it, followed by `: No text extracted` |
| App.EntriesDiffer | app.py:72-76 | a failure entry never equals a no-text entry, whatever the names and message |
| App.Ingest | app.py:57-76 | the loop only appends: earlier points and earlier entries stay in place, the total never falls, and each file adds at most one entry |
| App.IngestSplit | app.py:60-76 | files are independent: ingesting two lists is ingesting the first, then the second from the resulting state |
| App.UpsertOnlyWithChunks | app.py:68-73 | a file that raised or produced no chunks never reaches the store, whatever the store would do |
| App.TotalCountsStoredPoints | app.py:57-71 | the running `total_chunks` grows by exactly the number of points appended by upserts that returned, since a count is added only after its upsert returned |
| App.IngestReliable | app.py:57-76 | with a store that never raises, the loop adds in file order every processed file's points, the sum of their counts, and one entry per failed or empty file |
| App.ReingestDuplicates | app.py:57-76 | uploading the same files again, with fresh clock readings and fresh embedding calls, stores their chunks a second time: when the store never raises and each chunk text embeds on the second upload exactly when it did on the first, the second upload reports the same total and the store grows by it twice |
| App.Outcomes | app.py:60-66 | each upload is processed under its own name, and each successful outcome has as many vectors as records as its count |
| App.IngestUploads | app.py:57-76 | the upload handler only appends to the store, and reports at most one entry per uploaded file |
| App.UploadTotalIsStoredPoints | app.py:57-83 | the reported total is the number of points appended by upserts that returned, the store only grows, and at most one entry per file is reported |
| App.ContextChunks | app.py:138 | the context chunks are the hits' `text` payloads in hit order, with `""` for a hit without one |
| App.PlanQuery | app.py:134-141 | no prompt is built exactly when there are no hits; otherwise the prompt is `build_rag_prompt(query, context_chunks)`, so it starts with the preamble and the query and the joined context chunks are read back from it |
| App.StoredHitInPrompt | app.py:138-141 | the text of a hit stored by the upload loop appears verbatim in the prompt, at its place among the context chunks |
| App.Preview | app.py:172-174 | a text of at most 500 code points is shown whole; a longer one as its first 500 code points followed by `...` |
| App.HitPreview | app.py:172-174 | a hit's preview is at most 503 code points, and it is empty only for a hit without text or with an empty one |
| App.ChunkNumber | app.py:168 | the chunk number shown is the stored `chunk_index` plus one, or 1 when the payload has none |
| App.StoredChunkNumber | app.py:168-169 | for a stored chunk, the shown chunk number is its 1-based position in its document, between 1 and the `total_chunks` shown next to it |

## Left out

- Text extraction (`read_uploaded_file`, `_read_pdf`, `_read_text`): PyPDF2, the temporary file and UTF-8 decoding are foreign code. An upload carries the extracted text, or the extraction error, as data, and only the final `strip()` is modelled.
- `chunk_text`'s `None` defaults (document_processor.py:59-62): chunk size and overlap are explicit parameters. The upload loop passes the configured defaults 500 and 50 (config.py:30-31). Reading them from the environment is left out.
- Non-positive `chunk_size`: Python's negative-slice semantics would apply, so every chunker member requires `chunk_size >= 1`.
- Python strings may hold lone surrogate code points, while Dafny's `char` cannot; such strings are outside the model.
- `get_embedding`, `generate_answer` and the HTTP transport are network I/O. Embedding is a parameter returning a vector or an error message, and vectors are never inspected numerically.
- Within one upload, embedding is a fixed function of the chunk text: two equal chunks get the same answer, so a transient failure of one call that a repeat of the same text would survive cannot be expressed. Separate uploads take separate embedding functions.
- `datetime.now()` is a parameter: the clock reading for the metadata record of chunk `i`.
- JSON decoding of streamed lines: each line is given already classified as empty, malformed, or an object with `response` and `done`. A JSON value that is not an object (where `data.get` would raise) is out of scope.
- An exception raised while the answer streams (app.py:156-157) is not modelled; the stream is a finite list of lines.
- `vectorstore.py` beyond `upsert_vectors`' pairing: the Qdrant client, search ranking, `TOP_K`, collection info and clearing cannot be seen, and point identifiers come from `uuid4`. Search hits are an input.
- `config.py`'s environment variables and service health checks.
- Streamlit rendering: page layout, spinners, the success message text, warnings, the typing cursor, the source file name and upload time shown per hit, and score formatting (`:.3f`).
- Concurrency: the application has none; clearing the store while ingesting is not modelled.
- `upsert_vectors`' return value, the number of points, is ignored by the application and not modelled.
- A raising `upsert_vectors` is taken to have stored nothing. The real server might have applied the batch before the client raised; such points would be in the collection but not in `total_chunks`, and the totals stated here count only the points of upserts that returned.

=== FILE: app.dfy ===
/** The pure parts of the application script: the per-file ingestion loop
    of the upload sidebar, and on the query page the empty-hits check, the
    context extraction and the per-source display. The vector store is a
    sequence of points; its `upsert` is a parameter that either accepts a
    batch (which is then appended) or raises with a message. */
module App {
  import opened Wrappers
  import opened PyText
  import opened Chunker
  import opened DocumentProcessor
  import opened Prompt

  /** A stored point: the vector and the metadata record as its payload.
      Point identifiers are random and are not modelled. */
  datatype Point = Point(vector: Vector, payload: ChunkMetadata)

  /** What a call of `upsert_vectors` did: it returned, and the points were
      appended to the store, or it raised with a message. A raising call is
      taken to have stored nothing. */
  datatype UpsertOutcome = Stored | Raised(msg: string)

  /** `upsert_vectors`, given the current store and the new points. */
  type Upsert = (seq<Point>, seq<Point>) -> UpsertOutcome

  /** The points `upsert_vectors` builds: vectors and payloads paired up in
      order, as `zip` does, stopping at the shorter list. */
  function Zip(vectors: seq<Vector>, metadata: seq<ChunkMetadata>): (pts: seq<Point>)
    ensures |pts| == if |vectors| <= |metadata| then |vectors| else |metadata|
  {
    if vectors == [] || metadata == [] then []
    else [Point(vectors[0], metadata[0])] + Zip(vectors[1..], metadata[1..])
  }

  /** Pairing keeps each vector with the metadata record at the same index. */
  lemma {:induction false} ZipAt(vectors: seq<Vector>, metadata: seq<ChunkMetadata>, i: nat)
    requires i < |vectors| && i < |metadata|
    ensures Zip(vectors, metadata)[i] == Point(vectors[i], metadata[i])
  {
    if i > 0 {
      ZipAt(vectors[1..], metadata[1..], i - 1);
    }
  }

  /** What one upload produced: its name and the outcome of `process_document`
      (`Failure` when it raised). */
  datatype FileOutcome = FileOutcome(name: string, result: Result<Processed, string>)

  /** The loop state: the store, the running `total_chunks` and the `errors` list. */
  datatype Batch = Batch(store: seq<Point>, totalChunks: nat, errors: seq<string>)

  /** The entry for a file whose processing or upsert raised: a cross mark,
      then the file name and the message, which can be read back from it. */
  function FailedEntry(name: string, msg: string): (r: string)
    ensures |r| == 4 + |name| + |msg|
    ensures r[0] == '\U{274C}'
    ensures r[2..2 + |name|] == name && r[2 + |name|..4 + |name|] == ": "
    ensures r[4 + |name|..] == msg
  {
    "\U{274C} " + name + ": " + msg
  }

  /** The text after the file name in the entry for a file without chunks. */
  const NoTextExtracted: string := ": No text extracted"

  /** The entry for a file that yielded no chunks: a warning sign, then the
      file name, which can be read back from it. */
  function EmptyEntry(name: string): (r: string)
    ensures |r| == 3 + |name| + |NoTextExtracted|
    ensures r[0] == '\U{26A0}'
    ensures r[3..3 + |name|] == name && r[3 + |name|..] == NoTextExtracted
  {
    "\U{26A0}\U{FE0F} " + name + NoTextExtracted
  }

  /** A failure entry and a no-text entry are never confused, whatever the
      names and the message: they start with different marks. */
  lemma EntriesDiffer(name: string, msg: string, other: string)
    ensures FailedEntry(name, msg) != EmptyEntry(other)
  {
  }

  /** The points one outcome would upsert. */
  function PointsOf(p: Processed): seq<Point> {
    Zip(p.vectors, p.metadata)
  }

  /** The file's chunks reached the store: it was processed, had chunks, and
      the upsert did not raise. */
  predicate Accepted(b: Batch, f: FileOutcome, upsert: Upsert) {
    f.result.Success? && f.result.value.count > 0 && upsert(b.store, PointsOf(f.result.value)).Stored?
  }

  /** One turn of the loop. A file either has its points appended to the
      store and its count added to the total, or leaves both alone and adds
      exactly one entry to the errors — never both, never neither. */
  function IngestFile(b: Batch, f: FileOutcome, upsert: Upsert): (r: Batch)
    ensures Accepted(b, f, upsert) ==>
      r == Batch(b.store + PointsOf(f.result.value), b.totalChunks + f.result.value.count, b.errors)
    ensures !Accepted(b, f, upsert) ==>
      && r.store == b.store && r.totalChunks == b.totalChunks
      && |r.errors| == |b.errors| + 1 && r.errors[..|b.errors|] == b.errors
    ensures f.result.Failure? ==> r.errors[|b.errors|] == FailedEntry(f.name, f.result.error)
    ensures f.result.Success? && f.result.value.count == 0 ==> r.errors[|b.errors|] == EmptyEntry(f.name)
    ensures f.result.Success? && f.result.value.count > 0 && upsert(b.store, PointsOf(f.result.value)).Raised? ==>
      r.errors[|b.errors|] == FailedEntry(f.name, upsert(b.store, PointsOf(f.result.value)).msg)
  {
    match f.result
    case Failure(e) => b.(errors := b.errors + [FailedEntry(f.name, e)])
    case Success(p) =>
      if p.count > 0 then
        match upsert(b.store, PointsOf(p))
        case Stored => b.(store := b.store + PointsOf(p), totalChunks := b.totalChunks + p.count)
        case Raised(e) => b.(errors := b.errors + [FailedEntry(f.name, e)])
      else b.(errors := b.errors + [EmptyEntry(f.name)])
  }

  /** The loop over the uploaded files, in order. */
  function Ingest(b: Batch, files: seq<FileOutcome>, upsert: Upsert): (r: Batch)
    ensures |b.store| <= |r.store| && r.store[..|b.store|] == b.store
    ensures |b.errors| <= |r.errors| <= |b.errors| + |files| && r.errors[..|b.errors|] == b.errors
    ensures b.totalChunks <= r.totalChunks
    decreases |files|
  {
    if files == [] then b
    else Ingest(IngestFile(b, files[0], upsert), files[1..], upsert)
  }

  /** Files are handled one after another with nothing carried between them
      but the loop state: ingesting two lists is ingesting the first and then
      the second from where the first left off. */
  lemma {:induction false} IngestSplit(b: Batch, xs: seq<FileOutcome>, ys: seq<FileOutcome>, upsert: Upsert)
    ensures Ingest(b, xs + ys, upsert) == Ingest(Ingest(b, xs, upsert), ys, upsert)
    decreases |xs|
  {
    if xs == [] {
      assert xs + ys == ys;
    } else {
      assert (xs + ys)[0] == xs[0];
      assert (xs + ys)[1..] == xs[1..] + ys;
      IngestSplit(IngestFile(b, xs[0], upsert), xs[1..], ys, upsert);
    }
  }

  /** A file that raised or produced no chunks is never upserted: its turn
      is the same whatever the store would have done. */
  lemma UpsertOnlyWithChunks(b: Batch, f: FileOutcome, u1: Upsert, u2: Upsert)
    requires f.result.Failure? || f.result.value.count == 0
    ensures IngestFile(b, f, u1) == IngestFile(b, f, u2)
  {
  }

  /** Each processed document's three results agree: as many vectors as
      metadata records as the reported count. */
  predicate WellFormed(f: FileOutcome) {
    f.result.Success? ==>
      |f.result.value.vectors| == |f.result.value.metadata| == f.result.value.count
  }

  /** `total_chunks` counts exactly the points that reached the store, since
      a file's count is added only after its upsert returned. */
  lemma {:induction false} TotalCountsStoredPoints(b: Batch, files: seq<FileOutcome>, upsert: Upsert)
    requires forall i :: 0 <= i < |files| ==> WellFormed(files[i])
    ensures Ingest(b, files, upsert).totalChunks - b.totalChunks
            == |Ingest(b, files, upsert).store| - |b.store|
    decreases |files|
  {
    if files != [] {
      assert WellFormed(files[0]);
      TotalCountsStoredPoints(IngestFile(b, files[0], upsert), files[1..], upsert);
    }
  }

  /** The store never refuses a batch. */
  ghost predicate Reliable(upsert: Upsert) {
    forall store: seq<Point>, pts: seq<Point> :: upsert(store, pts).Stored?
  }

  /** Reference definitions for a reliable store, read off the file list
      alone: the entry each file contributes, the points it stores, and the
      chunks it counts. */
  function EntryOf(f: FileOutcome): seq<string> {
    match f.result
    case Failure(e) => [FailedEntry(f.name, e)]
    case Success(p) => if p.count > 0 then [] else [EmptyEntry(f.name)]
  }

  function PlannedErrors(files: seq<FileOutcome>): seq<string> {
    if files == [] then [] else EntryOf(files[0]) + PlannedErrors(files[1..])
  }

  function StoredBy(f: FileOutcome): seq<Point> {
    if f.result.Success? && f.result.value.count > 0 then PointsOf(f.result.value) else []
  }

  function CountedBy(f: FileOutcome): nat {
    if f.result.Success? then f.result.value.count else 0
  }

  function PlannedPoints(files: seq<FileOutcome>): seq<Point> {
    if files == [] then [] else StoredBy(files[0]) + PlannedPoints(files[1..])
  }

  function PlannedTotal(files: seq<FileOutcome>): nat {
    if files == [] then 0 else CountedBy(files[0]) + PlannedTotal(files[1..])
  }

  /** The loop state a reliable store leads to, read off the file list. */
  function PlannedBatch(b: Batch, files: seq<FileOutcome>): Batch {
    Batch(b.store + PlannedPoints(files), b.totalChunks + PlannedTotal(files), b.errors + PlannedErrors(files))
  }

  lemma PlannedSingle(f: FileOutcome)
    ensures PlannedPoints([f]) == StoredBy(f)
    ensures PlannedTotal([f]) == CountedBy(f)
    ensures PlannedErrors([f]) == EntryOf(f)
  {
    assert [f][1..] == [];
    assert StoredBy(f) + [] == StoredBy(f);
    assert EntryOf(f) + [] == EntryOf(f);
  }

  lemma IngestFileReliable(b: Batch, f: FileOutcome, upsert: Upsert)
    requires Reliable(upsert)
    ensures IngestFile(b, f, upsert) == PlannedBatch(b, [f])
  {
    PlannedSingle(f);
    if f.result.Success? && f.result.value.count > 0 {
      assert upsert(b.store, PointsOf(f.result.value)).Stored?;
    }
  }

  lemma PlannedBatchStep(b: Batch, files: seq<FileOutcome>)
    requires files != []
    ensures PlannedBatch(PlannedBatch(b, [files[0]]), files[1..]) == PlannedBatch(b, files)
  {
    var f := files[0];
    PlannedSingle(f);
    AppendAssoc(b.store, StoredBy(f), PlannedPoints(files[1..]));
    AppendAssoc(b.errors, EntryOf(f), PlannedErrors(files[1..]));
  }

  /** With a reliable store the loop adds, in file order, every processed
      file's points to the store, the sum of their counts to the total, and
      one entry per failed or empty file to the errors. */
  lemma {:induction false} IngestReliable(b: Batch, files: seq<FileOutcome>, upsert: Upsert)
    requires Reliable(upsert)
    ensures Ingest(b, files, upsert) == PlannedBatch(b, files)
    decreases |files|
  {
    if files == [] {
      assert b.store + [] == b.store && b.errors + [] == b.errors;
    } else {
      IngestFileReliable(b, files[0], upsert);
      IngestReliable(IngestFile(b, files[0], upsert), files[1..], upsert);
      PlannedBatchStep(b, files);
    }
  }

  /** The outcomes of processing each upload with the configured chunk size
      and overlap; `now(i, k)` is the clock reading when chunk `k` of file
      `i` gets its metadata. */
  function Outcomes(files: seq<UploadedFile>, embed: string -> Result<Vector, string>,
                    now: (nat, nat) -> string): (r: seq<FileOutcome>)
    ensures |r| == |files|
    ensures forall i :: 0 <= i < |r| ==> r[i].name == files[i].name && WellFormed(r[i])
  {
    seq(|files|, i requires 0 <= i < |files| => OutcomeOf(files[i], i, embed, now))
  }

  /** Processing upload number `i`. */
  function OutcomeOf(f: UploadedFile, i: nat, embed: string -> Result<Vector, string>,
                     now: (nat, nat) -> string): FileOutcome
  {
    FileOutcome(f.name, ProcessDocument(f, DefaultChunkSize, DefaultChunkOverlap, embed, (k: nat) => now(i, k)))
  }

  /** The upload handler: `total_chunks` and `errors` start afresh, the
      store is whatever earlier uploads left in it. */
  function IngestUploads(store: seq<Point>, files: seq<UploadedFile>, embed: string -> Result<Vector, string>,
                         now: (nat, nat) -> string, upsert: Upsert): (r: Batch)
    ensures |store| <= |r.store| && r.store[..|store|] == store
    ensures |r.errors| <= |files|
  {
    Ingest(Batch(store, 0, []), Outcomes(files, embed, now), upsert)
  }

  /** The success message's chunk count is the number of points the uploads
      added to the store, and at most one entry per file is reported. */
  lemma UploadTotalIsStoredPoints(store: seq<Point>, files: seq<UploadedFile>,
                                  embed: string -> Result<Vector, string>, now: (nat, nat) -> string, upsert: Upsert)
    ensures var r := IngestUploads(store, files, embed, now, upsert);
      && r.store[..|store|] == store
      && r.totalChunks == |r.store| - |store|
      && |r.errors| <= |files|
  {
    TotalCountsStoredPoints(Batch(store, 0, []), Outcomes(files, embed, now), upsert);
  }

  /** Uploading the same files a second time, with fresh clock readings
      and fresh embedding calls, stores their chunks again: nothing in the
      loop recognises a document already stored. When the store never
      raises and every chunk text embeds on the second upload exactly when
      it did on the first, the second upload reports the same total as the
      first and the store grows by that total twice. */
  lemma ReingestDuplicates(store: seq<Point>, files: seq<UploadedFile>,
                           embed1: string -> Result<Vector, string>, embed2: string -> Result<Vector, string>,
                           now1: (nat, nat) -> string, now2: (nat, nat) -> string, upsert: Upsert)
    requires Reliable(upsert)
    requires forall s :: embed1(s).Success? <==> embed2(s).Success?
    ensures var first := IngestUploads(store, files, embed1, now1, upsert);
      var second := IngestUploads(first.store, files, embed2, now2, upsert);
      && second.store == store + PlannedPoints(Outcomes(files, embed1, now1)) + PlannedPoints(Outcomes(files, embed2, now2))
      && second.totalChunks == first.totalChunks
      && |second.store| == |store| + 2 * first.totalChunks
  {
    var o1 := Outcomes(files, embed1, now1);
    var o2 := Outcomes(files, embed2, now2);
    var first := IngestUploads(store, files, embed1, now1, upsert);
    IngestReliable(Batch(store, 0, []), o1, upsert);
    IngestReliable(Batch(first.store, 0, []), o2, upsert);
    TotalCountsStoredPoints(Batch(store, 0, []), o1, upsert);
    TotalCountsStoredPoints(Batch(first.store, 0, []), o2, upsert);
    forall i | 0 <= i < |files| ensures CountedBy(o1[i]) == CountedBy(o2[i]) {
      SameCount(files[i], i, embed1, embed2, now1, now2);
    }
    SameCountsSameTotal(o1, o2);
  }

  /** The clock only fills in timestamps and the vectors are only stored,
      so whether a file is processed and how many chunks it has depend only
      on which chunk texts embed. */
  lemma SameCount(f: UploadedFile, i: nat,
                  embed1: string -> Result<Vector, string>, embed2: string -> Result<Vector, string>,
                  now1: (nat, nat) -> string, now2: (nat, nat) -> string)
    requires forall s :: embed1(s).Success? <==> embed2(s).Success?
    ensures CountedBy(OutcomeOf(f, i, embed1, now1)) == CountedBy(OutcomeOf(f, i, embed2, now2))
  {
  }

  lemma {:induction false} SameCountsSameTotal(xs: seq<FileOutcome>, ys: seq<FileOutcome>)
    requires |xs| == |ys|
    requires forall i :: 0 <= i < |xs| ==> CountedBy(xs[i]) == CountedBy(ys[i])
    ensures PlannedTotal(xs) == PlannedTotal(ys)
    decreases |xs|
  {
    if xs != [] {
      assert CountedBy(xs[0]) == CountedBy(ys[0]);
      SameCountsSameTotal(xs[1..], ys[1..]);
    }
  }

  // ---------------------------------------------------------------------------
  // Query page

  /** A search hit's payload as read back with `payload.get(key, default)`:
      each key may be missing. */
  datatype Payload = Payload(
    text: Option<string>,
    sourceFile: Option<string>,
    chunkIndex: Option<int>,
    totalChunks: Option<int>,
    uploadTimestamp: Option<string>,
    fileType: Option<string>)

  /** A search hit; the score is only displayed. */
  datatype Hit = Hit(payload: Payload, score: real)

  /** The payload a point stored by the upload loop carries. */
  function StoredPayload(m: ChunkMetadata): Payload {
    Payload(Some(m.text), Some(m.sourceFile), Some(m.chunkIndex), Some(m.totalChunks),
            Some(m.uploadTimestamp), Some(m.fileType))
  }

  /** The context chunks: each hit's `text`, or `""` when it has none, in
      hit order. */
  function ContextChunks(hits: seq<Hit>): (cs: seq<string>)
    ensures |cs| == |hits|
    ensures forall i :: 0 <= i < |hits| ==> hits[i].payload.text.Some? ==> cs[i] == hits[i].payload.text.value
    ensures forall i :: 0 <= i < |hits| ==> hits[i].payload.text.None? ==> cs[i] == ""
  {
    seq(|hits|, i requires 0 <= i < |hits| => ValueOr(hits[i].payload.text, ""))
  }

  /** What the query page does with the hits: warn and stop when there are
      none, otherwise build the prompt to stream an answer for. */
  datatype QueryPlan = NoContext | Ask(prompt: string)

  function PlanQuery(query: string, hits: seq<Hit>): (r: QueryPlan)
    ensures r.NoContext? <==> hits == []
    ensures r.Ask? ==>
      && |Preamble| + |QuestionHeader| + |query| + |AnswerCue| <= |r.prompt|
      && Occurs(Preamble, r.prompt, 0)
      && QuestionOf(r.prompt, |query|) == query
      && ContextOf(r.prompt, |query|) == Join(ContextChunks(hits))
    ensures r.Ask? ==> r.prompt == BuildRagPrompt(query, ContextChunks(hits))
  {
    if hits == [] then NoContext
    else
      PromptRoundTrip(query, ContextChunks(hits));
      Ask(BuildRagPrompt(query, ContextChunks(hits)))
  }

  /** The text of a hit stored by the upload loop reaches the prompt
      verbatim, at its place among the context chunks. */
  lemma StoredHitInPrompt(query: string, hits: seq<Hit>, k: nat, m: ChunkMetadata)
    requires k < |hits| && hits[k].payload == StoredPayload(m)
    ensures PlanQuery(query, hits).Ask?
    ensures Occurs(m.text, PlanQuery(query, hits).prompt, |Preamble| + Offset(ContextChunks(hits), k))
  {
    StoredTextInContext(query, hits, k, m);
  }

  lemma StoredTextInContext(query: string, hits: seq<Hit>, k: nat, m: ChunkMetadata)
    requires k < |hits| && hits[k].payload == StoredPayload(m)
    ensures Occurs(m.text, BuildRagPrompt(query, ContextChunks(hits)), |Preamble| + Offset(ContextChunks(hits), k))
  {
    var cs := ContextChunks(hits);
    assert cs[k] == m.text;
    ChunkInPrompt(query, cs, k);
  }

  /** The longest text shown in full in a source preview. */
  const PreviewLimit: nat := 500

  /** The source preview: the text when it has at most 500 code points,
      otherwise its first 500 followed by `...`. */
  function Preview(text: string): (r: string)
    ensures |text| <= PreviewLimit ==> r == text
    ensures |text| > PreviewLimit ==> |r| == PreviewLimit + 3 && r[..PreviewLimit] == text[..PreviewLimit] && r[PreviewLimit..] == "..."
  {
    if |text| > PreviewLimit then text[..PreviewLimit] + "..." else text
  }

  /** The preview of a hit: its `text`, or `""` when it has none. It is
      never longer than 503 code points, and empty only for a hit without
      text or with an empty one. */
  function HitPreview(h: Hit): (r: string)
    ensures |r| <= PreviewLimit + 3
    ensures r == [] <==> h.payload.text.None? || h.payload.text.value == []
  {
    Preview(ValueOr(h.payload.text, ""))
  }

  /** The 1-based chunk number shown for a hit (`chunk_index` defaults to 0). */
  function ChunkNumber(p: Payload): (n: int)
    ensures p.chunkIndex.Some? ==> n == p.chunkIndex.value + 1
    ensures p.chunkIndex.None? ==> n == 1
  {
    ValueOr(p.chunkIndex, 0) + 1
  }

  /** For a point stored from a processed document, the chunk number shown
      is its position among the document's chunks counted from 1, and never
      exceeds the `total_chunks` shown next to it. */
  lemma StoredChunkNumber(f: UploadedFile, chunkSize: nat, overlap: int,
                          embed: string -> Result<Vector, string>, now: nat -> string, i: nat)
    requires chunkSize >= 1
    ensures var r := ProcessDocument(f, chunkSize, overlap, embed, now);
      r.Success? && i < |r.value.metadata| ==>
        var m := r.value.metadata[i];
        && ChunkNumber(StoredPayload(m)) == i + 1
        && 1 <= ChunkNumber(StoredPayload(m)) <= m.totalChunks
  {
    MetadataIsConsistent(f, chunkSize, overlap, embed, now);
  }
}

=== FILE: chunker.dfy ===
/** The character-window chunker of the document processor (`chunk_text`).
    A cursor starts at 0; the window `text[start:start+chunk_size]` is kept
    when it is not blank; the cursor then advances by the stride
    `chunk_size - overlap'`, where `overlap' = min(overlap, chunk_size - 1)`,
    until it reaches the end of the text. Windows are measured in code
    points, never in model tokens. */
module Chunker {
  import opened PyText

  /** Defaults of the configuration module (CHUNK_SIZE, CHUNK_OVERLAP). */
  const DefaultChunkSize: nat := 500
  const DefaultChunkOverlap: int := 50

  /** `min(overlap, chunk_size - 1)`: the overlap the loop really uses. */
  function EffectiveOverlap(chunkSize: nat, overlap: int): (o: int)
    requires chunkSize >= 1
    ensures o <= overlap && o < chunkSize
    ensures o == overlap || o == chunkSize - 1
  {
    if overlap < chunkSize - 1 then overlap else chunkSize - 1
  }

  /** How far the cursor moves per iteration (`end - overlap - start`).
      The clamp makes it at least 1, so the loop always terminates; with a
      non-negative overlap it is at most the window size, so consecutive
      windows leave no gap. */
  function Stride(chunkSize: nat, overlap: int): (step: nat)
    requires chunkSize >= 1
    ensures step >= 1
    ensures overlap < chunkSize ==> step == chunkSize - overlap
    ensures overlap >= chunkSize ==> step == 1
    ensures overlap >= 0 ==> step <= chunkSize
  {
    chunkSize - EffectiveOverlap(chunkSize, overlap)
  }

  /** Python's `s[lo:hi]` for non-negative bounds: both ends are clipped to
      `len(s)` and an inverted range is empty. */
  function Slice(s: string, lo: nat, hi: nat): string {
    if |s| <= lo || hi <= lo then [] else s[lo..if hi < |s| then hi else |s|]
  }

  /** The window the loop examines at cursor `start`. */
  function Window(text: string, start: nat, size: nat): (w: string)
    ensures start < |text| ==> |w| == (if start + size < |text| then size else |text| - start)
    ensures start < |text| ==> w == text[start..start + |w|]
  {
    Slice(text, start, start + size)
  }

  /** A kept window together with the offset it was cut at. */
  datatype Chunk = Chunk(start: nat, text: string)

  /** Every cursor position the loop visits from `start` on. */
  function Cursors(start: nat, n: nat, step: nat): (r: seq<nat>)
    requires step >= 1
    ensures forall i :: 0 <= i < |r| ==> start <= r[i] < n
    ensures start < n ==> |r| > 0 && r[0] == start
    decreases n - start
  {
    if start >= n then [] else [start] + Cursors(start + step, n, step)
  }

  /** The loop of `chunk_text` from cursor `start` on: the windows it keeps,
      in cursor order. */
  function ChunksFrom(text: string, start: nat, size: nat, step: nat): seq<Chunk>
    requires step >= 1
    decreases |text| - start
  {
    if start >= |text| then [] else KeptAt(text, start, size) + ChunksFrom(text, start + step, size, step)
  }

  function Texts(cs: seq<Chunk>): (r: seq<string>)
    ensures |r| == |cs|
    ensures forall i :: 0 <= i < |cs| ==> r[i] == cs[i].text
  {
    seq(|cs|, i requires 0 <= i < |cs| => cs[i].text)
  }

  function Starts(cs: seq<Chunk>): (r: seq<nat>)
    ensures |r| == |cs|
    ensures forall i :: 0 <= i < |cs| ==> r[i] == cs[i].start
  {
    seq(|cs|, i requires 0 <= i < |cs| => cs[i].start)
  }

  /** The kept windows of `chunk_text(text, chunk_size, overlap)` with their offsets. */
  function ChunkSpans(text: string, chunkSize: nat, overlap: int): seq<Chunk>
    requires chunkSize >= 1
  {
    ChunksFrom(text, 0, chunkSize, Stride(chunkSize, overlap))
  }

  /** `chunk_text(text, chunk_size, overlap)`: the kept windows, unstripped. */
  function ChunkText(text: string, chunkSize: nat, overlap: int): (chunks: seq<string>)
    requires chunkSize >= 1
    ensures text == [] ==> chunks == []
    ensures forall i :: 0 <= i < |chunks| ==> 0 < |chunks[i]| <= chunkSize && !IsBlank(chunks[i])
  {
    ChunksFromIncreasing(text, 0, chunkSize, Stride(chunkSize, overlap));
    Texts(ChunkSpans(text, chunkSize, overlap))
  }

  /** One iteration of the loop on a blank window: nothing is kept and the
      loop goes on at the next cursor. */
  lemma SkipBlank(text: string, start: nat, size: nat, step: nat)
    requires step >= 1 && start < |text|
    requires IsBlank(Window(text, start, size))
    ensures ChunksFrom(text, start, size, step) == ChunksFrom(text, start + step, size, step)
  {
    assert KeptAt(text, start, size) == [];
    assert [] + ChunksFrom(text, start + step, size, step) == ChunksFrom(text, start + step, size, step);
  }

  /** One iteration of the loop on a non-blank window: it is kept, followed
      by what the loop keeps from the next cursor on. */
  lemma KeepWindow(text: string, start: nat, size: nat, step: nat)
    requires step >= 1 && start < |text|
    requires !IsBlank(Window(text, start, size))
    ensures Texts(ChunksFrom(text, start, size, step))
         == [Window(text, start, size)] + Texts(ChunksFrom(text, start + step, size, step))
  {
    var kept := KeptAt(text, start, size);
    ChunksFromStep(text, start, size, step);
    TextsAppend(kept, ChunksFrom(text, start + step, size, step));
    assert Texts(kept) == [Window(text, start, size)];
  }

  lemma AppendAssoc<T>(a: seq<T>, b: seq<T>, c: seq<T>)
    ensures a + (b + c) == (a + b) + c
  {
  }

  lemma TextsAppend(a: seq<Chunk>, b: seq<Chunk>)
    ensures Texts(a + b) == Texts(a) + Texts(b)
  {
  }

  /** What the loop of `chunk_text` still collects from cursor `start` on. */
  function Rest(text: string, chunkSize: nat, overlap: int, start: nat): seq<string>
    requires chunkSize >= 1
  {
    Texts(ChunksFrom(text, start, chunkSize, Stride(chunkSize, overlap)))
  }

  /** Before the first iteration, everything is still to be collected. */
  lemma RestAtStart(text: string, chunkSize: nat, overlap: int)
    requires chunkSize >= 1
    ensures ChunkText(text, chunkSize, overlap) == [] + Rest(text, chunkSize, overlap, 0)
  {
    assert [] + ChunkText(text, chunkSize, overlap) == ChunkText(text, chunkSize, overlap);
  }

  /** Once the cursor is past the text, nothing is left to collect. */
  lemma RestAtEnd(text: string, chunkSize: nat, overlap: int, start: nat, chunks: seq<string>)
    requires chunkSize >= 1 && start >= |text|
    ensures chunks + Rest(text, chunkSize, overlap, start) == chunks
  {
    assert chunks + [] == chunks;
  }

  /** One turn of the loop, whichever way the blank test goes: `chunk` is
      the window at `start`, `keep` says whether it is kept, and `next` is
      the cursor after it. What has been collected followed by what is left
      stays the whole result. */
  lemma Advance(text: string, chunkSize: nat, overlap: int, start: nat, next: nat,
                total: seq<string>, chunks: seq<string>, chunk: string, keep: bool)
    requires chunkSize >= 1 && start < |text| && next == start + Stride(chunkSize, overlap)
    requires total == chunks + Rest(text, chunkSize, overlap, start)
    requires chunk == Slice(text, start, start + chunkSize)
    requires keep <==> !IsBlank(chunk)
    ensures total == (if keep then chunks + [chunk] else chunks) + Rest(text, chunkSize, overlap, next)
  {
    if keep {
      RestKeep(text, chunkSize, overlap, start, next, chunk);
      AppendAssoc(chunks, [chunk], Rest(text, chunkSize, overlap, next));
    } else {
      RestSkip(text, chunkSize, overlap, start, next, chunk);
    }
  }

  /** A non-blank window is the next thing collected. */
  lemma RestKeep(text: string, chunkSize: nat, overlap: int, start: nat, next: nat, chunk: string)
    requires chunkSize >= 1 && start < |text| && next == start + Stride(chunkSize, overlap)
    requires chunk == Slice(text, start, start + chunkSize) && !IsBlank(chunk)
    ensures Rest(text, chunkSize, overlap, start) == [chunk] + Rest(text, chunkSize, overlap, next)
  {
    var step := Stride(chunkSize, overlap);
    SliceIsWindow(text, start, chunkSize, chunk);
    var here, later := ChunksFrom(text, start, chunkSize, step), ChunksFrom(text, next, chunkSize, step);
    assert Rest(text, chunkSize, overlap, start) == Texts(here);
    assert Rest(text, chunkSize, overlap, next) == Texts(later);
    KeepWindow(text, start, chunkSize, step);
  }

  lemma SliceIsWindow(text: string, start: nat, size: nat, chunk: string)
    requires chunk == Slice(text, start, start + size)
    ensures chunk == Window(text, start, size)
  {
  }

  /** A blank window adds nothing to what is collected. */
  lemma RestSkip(text: string, chunkSize: nat, overlap: int, start: nat, next: nat, chunk: string)
    requires chunkSize >= 1 && start < |text| && next == start + Stride(chunkSize, overlap)
    requires chunk == Slice(text, start, start + chunkSize) && IsBlank(chunk)
    ensures Rest(text, chunkSize, overlap, start) == Rest(text, chunkSize, overlap, next)
  {
    var step := Stride(chunkSize, overlap);
    SliceIsWindow(text, start, chunkSize, chunk);
    var here, later := ChunksFrom(text, start, chunkSize, step), ChunksFrom(text, next, chunkSize, step);
    assert Rest(text, chunkSize, overlap, start) == Texts(here);
    assert Rest(text, chunkSize, overlap, next) == Texts(later);
    SkipBlank(text, start, chunkSize, step);
  }

  /** The truth value of `chunk.strip()`: a stripped string is truthy
      exactly when the chunk holds a non-whitespace code point. */
  method StripIsTruthy(chunk: string) returns (truthy: bool)
    ensures truthy <==> !IsBlank(chunk)
  {
    truthy := Strip(chunk) != [];
  }

  /** The loop of `chunk_text`, statement for statement: the cursor, the
      clipped slice, the blank test on the stripped window, the advance by
      `end - overlap` and the early `break`. */
  method ChunkTextLoop(text: string, chunkSize: nat, overlap: int) returns (chunks: seq<string>)
    requires chunkSize >= 1
    ensures chunks == ChunkText(text, chunkSize, overlap)
  {
    var ov := EffectiveOverlap(chunkSize, overlap);
    chunks := [];
    var start: nat := 0;
    ghost var total := ChunkText(text, chunkSize, overlap);
    ghost var rest := Rest(text, chunkSize, overlap, start);
    RestAtStart(text, chunkSize, overlap);
    while start < |text|
      invariant rest == Rest(text, chunkSize, overlap, start)
      invariant total == chunks + rest
      decreases |text| - start
    {
      var end := start + chunkSize;
      var chunk := Slice(text, start, end);
      var keep := StripIsTruthy(chunk);
      var next := end - ov;
      Advance(text, chunkSize, overlap, start, next, total, chunks, chunk, keep);
      if keep {
        chunks := chunks + [chunk];
      }
      start := next;
      rest := Rest(text, chunkSize, overlap, start);
      if start >= |text| {
        break;
      }
    }
    RestAtEnd(text, chunkSize, overlap, start, chunks);
  }

  // ---------------------------------------------------------------------
  // Shape of the result
  // ---------------------------------------------------------------------

  /** Every chunk of `cs` is the non-blank window at its own offset, and that
      offset lies in `[lo, len(text))`. */
  predicate WindowsAt(text: string, cs: seq<Chunk>, lo: nat, size: nat) {
    forall i :: 0 <= i < |cs| ==>
      && lo <= cs[i].start < |text|
      && cs[i].text == Window(text, cs[i].start, size)
      && !IsBlank(cs[i].text)
  }

  predicate Increasing(cs: seq<Chunk>) {
    forall i, j :: 0 <= i < j < |cs| ==> cs[i].start < cs[j].start
  }

  /** One step of `ChunksFrom`, as a concatenation. */
  lemma ChunksFromStep(text: string, start: nat, size: nat, step: nat)
    requires step >= 1 && start < |text|
    ensures ChunksFrom(text, start, size, step) == KeptAt(text, start, size) + ChunksFrom(text, start + step, size, step)
    ensures KeptAt(text, start, size) == [] || (KeptAt(text, start, size) == [Chunk(start, Window(text, start, size))] && !IsBlank(Window(text, start, size)))
  {
  }

  /** The chunk kept at cursor `start`, if any. */
  function KeptAt(text: string, start: nat, size: nat): (k: seq<Chunk>)
    ensures |k| <= 1
    ensures forall i :: 0 <= i < |k| ==> k[i].start == start
  {
    var w := Window(text, start, size);
    if !IsBlank(w) then [Chunk(start, w)] else []
  }

  /** Kept chunks come in strictly increasing cursor order, all at or after `start`. */
  lemma {:induction false} ChunksFromIncreasing(text: string, start: nat, size: nat, step: nat)
    requires step >= 1
    ensures Increasing(ChunksFrom(text, start, size, step))
    ensures WindowsAt(text, ChunksFrom(text, start, size, step), start, size)
    decreases |text| - start
  {
    if start < |text| {
      ChunksFromIncreasing(text, start + step, size, step);
      IncreasingStep(text, start, size, step);
    }
  }

  /** One cursor more: the window kept at `start`, if any, comes before
      everything kept later. */
  lemma IncreasingStep(text: string, start: nat, size: nat, step: nat)
    requires step >= 1 && start < |text|
    requires Increasing(ChunksFrom(text, start + step, size, step))
    requires WindowsAt(text, ChunksFrom(text, start + step, size, step), start + step, size)
    ensures Increasing(ChunksFrom(text, start, size, step))
    ensures WindowsAt(text, ChunksFrom(text, start, size, step), start, size)
  {
    var kept := KeptAt(text, start, size);
    var rest := ChunksFrom(text, start + step, size, step);
    assert ChunksFrom(text, start, size, step) == kept + rest;
    IncreasingAppend(text, kept, rest, start, start + step, size);
  }

  lemma IncreasingAppend(text: string, kept: seq<Chunk>, rest: seq<Chunk>, start: nat, next: nat, size: nat)
    requires start < next && start < |text|
    requires kept == KeptAt(text, start, size)
    requires Increasing(rest) && WindowsAt(text, rest, next, size)
    ensures Increasing(kept + rest) && WindowsAt(text, kept + rest, start, size)
  {
    if kept != [] {
      var c := Chunk(start, Window(text, start, size));
      assert kept == [c];
      ConsIncreasing(text, c, rest, next, size);
      ConsWindowsAt(text, c, rest, start, next, size);
    } else {
      assert kept + rest == rest;
    }
  }

  lemma ConsIncreasing(text: string, c: Chunk, rest: seq<Chunk>, next: nat, size: nat)
    requires c.start < next
    requires Increasing(rest) && WindowsAt(text, rest, next, size)
    ensures Increasing([c] + rest)
  {
    var r := [c] + rest;
    forall i, j | 0 <= i < j < |r| ensures r[i].start < r[j].start {
      assert r[j] == rest[j - 1];
      if i >= 1 {
        assert r[i] == rest[i - 1];
      }
    }
  }

  lemma ConsWindowsAt(text: string, c: Chunk, rest: seq<Chunk>, lo: nat, next: nat, size: nat)
    requires lo == c.start < next && c.start < |text|
    requires c.text == Window(text, c.start, size) && !IsBlank(c.text)
    requires WindowsAt(text, rest, next, size)
    ensures WindowsAt(text, [c] + rest, lo, size)
  {
    var r := [c] + rest;
    forall i | 0 <= i < |r|
      ensures lo <= r[i].start < |text|
      ensures r[i].text == Window(text, r[i].start, size)
      ensures !IsBlank(r[i].text)
    {
      if i >= 1 {
        assert r[i] == rest[i - 1];
      }
    }
  }

  /** The contract of `chunk_text` as the loop gives it: each chunk is the
      unstripped window `text[s:s+chunk_size]` at its offset `s < len(text)`,
      so it holds between 1 and `chunk_size` code points, contains a
      non-whitespace code point, and offsets strictly increase. */
  lemma ChunkTextShape(text: string, chunkSize: nat, overlap: int)
    requires chunkSize >= 1
    ensures var spans := ChunkSpans(text, chunkSize, overlap);
      && ChunkText(text, chunkSize, overlap) == Texts(spans)
      && (forall i :: 0 <= i < |spans| ==>
            && spans[i].start < |text|
            && spans[i].text == Window(text, spans[i].start, chunkSize)
            && 0 < |spans[i].text| <= chunkSize
            && !IsBlank(spans[i].text))
      && (forall i, j :: 0 <= i < j < |spans| ==> spans[i].start < spans[j].start)
    ensures var chunks := ChunkText(text, chunkSize, overlap);
      forall i :: 0 <= i < |chunks| ==> 0 < |chunks[i]| <= chunkSize && !IsBlank(chunks[i])
  {
    ChunksFromIncreasing(text, 0, chunkSize, Stride(chunkSize, overlap));
  }

  // ---------------------------------------------------------------------
  // Which windows are kept
  // ---------------------------------------------------------------------

  /** Cursor `k` (0-based) sits at `start + k * step`. */
  predicate Arithmetic(cs: seq<nat>, start: nat, step: nat) {
    forall k :: 0 <= k < |cs| ==> cs[k] == start + k * step
  }

  lemma {:induction false} CursorsArithmetic(start: nat, n: nat, step: nat)
    requires step >= 1
    ensures Arithmetic(Cursors(start, n, step), start, step)
    ensures start < n ==> start + (|Cursors(start, n, step)| - 1) * step < n <= start + |Cursors(start, n, step)| * step
    decreases n - start
  {
    if start < n {
      var c := Cursors(start, n, step);
      var rest := Cursors(start + step, n, step);
      assert c == [start] + rest;
      CursorsArithmetic(start + step, n, step);
      forall k | 0 <= k < |c| ensures c[k] == start + k * step {
        if k > 0 {
          assert c[k] == rest[k - 1] == start + step + (k - 1) * step;
          assert step + (k - 1) * step == k * step;
        }
      }
      if rest != [] {
        assert start + step + (|rest| - 1) * step == start + (|c| - 1) * step;
        assert start + step + |rest| * step == start + |c| * step;
      }
    }
  }

  /** The loop visits exactly the offsets `0, step, 2*step, ...` below
      `len(text)`: `|cursors|` is the least `k` with `k * step >= len(text)`. */
  lemma CursorsAreMultiples(n: nat, step: nat)
    requires step >= 1
    ensures var cs := Cursors(0, n, step);
      && (forall k :: 0 <= k < |cs| ==> cs[k] == k * step)
      && (n == 0 ==> cs == [])
      && (n > 0 ==> (|cs| - 1) * step < n <= |cs| * step)
  {
    CursorsArithmetic(0, n, step);
  }

  /** A cursor's window is kept exactly when it is not blank. */
  predicate KeepsExactly(text: string, cs: seq<Chunk>, cursors: seq<nat>, size: nat) {
    forall c :: c in cursors ==> (c in Starts(cs) <==> !IsBlank(Window(text, c, size)))
  }

  /** Every chunk was cut at one of the cursors. */
  predicate StartsAmong(cs: seq<Chunk>, cursors: seq<nat>) {
    forall i :: 0 <= i < |cs| ==> cs[i].start in cursors
  }

  lemma {:induction false} ChunksFromKeptCursors(text: string, start: nat, size: nat, step: nat)
    requires step >= 1
    ensures KeepsExactly(text, ChunksFrom(text, start, size, step), Cursors(start, |text|, step), size)
    ensures StartsAmong(ChunksFrom(text, start, size, step), Cursors(start, |text|, step))
    decreases |text| - start
  {
    if start < |text| {
      ChunksFromKeptCursors(text, start + step, size, step);
      KeptCursorsStep(text, start, size, step);
    }
  }

  /** One cursor more: what holds from the next cursor on holds from `start`. */
  lemma KeptCursorsStep(text: string, start: nat, size: nat, step: nat)
    requires step >= 1 && start < |text|
    requires KeepsExactly(text, ChunksFrom(text, start + step, size, step), Cursors(start + step, |text|, step), size)
    requires StartsAmong(ChunksFrom(text, start + step, size, step), Cursors(start + step, |text|, step))
    ensures KeepsExactly(text, ChunksFrom(text, start, size, step), Cursors(start, |text|, step), size)
    ensures StartsAmong(ChunksFrom(text, start, size, step), Cursors(start, |text|, step))
  {
    var kept := KeptAt(text, start, size);
    var rest := ChunksFrom(text, start + step, size, step);
    var later := Cursors(start + step, |text|, step);
    assert Cursors(start, |text|, step) == [start] + later;
    assert ChunksFrom(text, start, size, step) == kept + rest;
    LaterCursors(start, |text|, step);
    NotAmongStarts(rest, start, later);
    KeptCursorsCons(text, kept, rest, start, later, size);
  }

  /** The cursors after `start` never revisit it. */
  lemma LaterCursors(start: nat, n: nat, step: nat)
    requires step >= 1
    ensures start !in Cursors(start + step, n, step)
  {
  }

  /** A cursor no chunk was cut at starts no chunk. */
  lemma NotAmongStarts(rest: seq<Chunk>, start: nat, later: seq<nat>)
    requires StartsAmong(rest, later) && start !in later
    ensures start !in Starts(rest)
  {
    forall i | 0 <= i < |rest| ensures Starts(rest)[i] != start {
      assert rest[i].start in later;
    }
  }

  lemma KeptCursorsCons(text: string, kept: seq<Chunk>, rest: seq<Chunk>, start: nat, later: seq<nat>, size: nat)
    requires kept == KeptAt(text, start, size)
    requires start !in later && start !in Starts(rest)
    requires KeepsExactly(text, rest, later, size) && StartsAmong(rest, later)
    ensures KeepsExactly(text, kept + rest, [start] + later, size)
    ensures StartsAmong(kept + rest, [start] + later)
  {
    KeptCursorsConsKeeps(text, kept, rest, start, later, size);
    KeptCursorsConsAmong(kept, rest, start, later);
  }

  lemma KeptCursorsConsKeeps(text: string, kept: seq<Chunk>, rest: seq<Chunk>, start: nat, later: seq<nat>, size: nat)
    requires kept == KeptAt(text, start, size)
    requires start !in later && start !in Starts(rest)
    requires KeepsExactly(text, rest, later, size)
    ensures KeepsExactly(text, kept + rest, [start] + later, size)
  {
    var r := kept + rest;
    assert Starts(r) == Starts(kept) + Starts(rest);
    forall c | c in [start] + later
      ensures c in Starts(r) <==> !IsBlank(Window(text, c, size))
    {
      if c == start {
        if kept != [] {
          assert Starts(r)[0] == start;
        } else {
          assert Starts(r) == Starts(rest);
        }
      } else {
        assert c in later;
        assert c !in Starts(kept);
      }
    }
  }

  lemma KeptCursorsConsAmong(kept: seq<Chunk>, rest: seq<Chunk>, start: nat, later: seq<nat>)
    requires forall i :: 0 <= i < |kept| ==> kept[i].start == start
    requires StartsAmong(rest, later)
    ensures StartsAmong(kept + rest, [start] + later)
  {
    var r := kept + rest;
    forall i | 0 <= i < |r| ensures r[i].start in [start] + later {
      if i >= |kept| {
        assert r[i] == rest[i - |kept|];
      }
    }
  }

  /** Only whitespace-only windows are dropped: among the offsets the loop
      visits, an offset starts a chunk if and only if its window contains a
      non-whitespace code point, and no chunk starts anywhere else. */
  lemma ChunkTextKeepsNonBlankWindows(text: string, chunkSize: nat, overlap: int)
    requires chunkSize >= 1
    ensures var cursors := Cursors(0, |text|, Stride(chunkSize, overlap));
      var spans := ChunkSpans(text, chunkSize, overlap);
      && (forall c :: c in cursors ==> (c in Starts(spans) <==> !IsBlank(Window(text, c, chunkSize))))
      && (forall i :: 0 <= i < |spans| ==> spans[i].start in cursors)
  {
    ChunksFromKeptCursors(text, 0, chunkSize, Stride(chunkSize, overlap));
  }

  // ---------------------------------------------------------------------
  // Short texts
  // ---------------------------------------------------------------------

  /** Empty text gives no chunk; a text no longer than one window and one
      stride gives itself when it has a non-whitespace code point, and
      nothing otherwise. */
  lemma ShortTextIsOneChunk(text: string, chunkSize: nat, overlap: int)
    requires chunkSize >= 1
    requires |text| <= chunkSize && |text| <= Stride(chunkSize, overlap)
    ensures ChunkText(text, chunkSize, overlap) == if IsBlank(text) then [] else [text]
  {
    var step := Stride(chunkSize, overlap);
    if |text| > 0 {
      ChunksFromStep(text, 0, chunkSize, step);
      assert Window(text, 0, chunkSize) == text;
      assert ChunksFrom(text, step, chunkSize, step) == [];
    }
  }

  /** Where the code departs from "a text shorter than chunk_size is one
      chunk": for a text longer than one stride but within one window and
      two strides, whose tail `text[step:]` is not blank (always so for a
      stripped text), the cursor still lands inside the text once more, so
      the tail comes back as a second chunk although the first chunk
      already holds the whole text. */
  lemma ShortTextRepeatsItsTail(text: string, chunkSize: nat, overlap: int)
    requires chunkSize >= 1
    requires Stride(chunkSize, overlap) < |text| <= chunkSize
    requires |text| <= 2 * Stride(chunkSize, overlap)
    requires !IsBlank(text[Stride(chunkSize, overlap)..])
    ensures ChunkText(text, chunkSize, overlap) == [text, text[Stride(chunkSize, overlap)..]]
  {
    var step := Stride(chunkSize, overlap);
    var tail := text[step..];
    assert Window(text, 0, chunkSize) == text;
    assert Window(text, step, chunkSize) == tail;
    SuffixNotBlank(text, step);
    KeepWindow(text, 0, chunkSize, step);
    KeepWindow(text, step, chunkSize, step);
    assert Texts(ChunksFrom(text, step + step, chunkSize, step)) == [];
    assert [text] + ([tail] + []) == [text, tail];
  }

  /** A string with a non-blank suffix is not blank. */
  lemma SuffixNotBlank(s: string, k: nat)
    requires k <= |s| && !IsBlank(s[k..])
    ensures !IsBlank(s)
  {
    var j :| 0 <= j < |s| - k && !IsSpace(s[k..][j]);
    assert s[k + j] == s[k..][j];
  }

  // ---------------------------------------------------------------------
  // Overlap, coverage and reassembly
  // ---------------------------------------------------------------------

  /** Two windows one stride apart agree on their shared region: the first
      from offset `step` on is the start of the second (both clipped at the
      end of the text). */
  lemma WindowsOverlap(text: string, s: nat, size: nat, step: nat)
    requires 1 <= step <= size && s + step < |text|
    ensures step <= |Window(text, s, size)|
    ensures Window(text, s, size)[step..] == Window(text, s + step, size)[..|Window(text, s, size)| - step]
  {
    var a := Window(text, s, size);
    var b := Window(text, s + step, size);
    assert a[step..] == text[s + step..s + |a|];
    assert b[..|a| - step] == text[s + step..s + |a|];
  }

  /** Consecutive chunks cut one stride apart (no blank window dropped
      between them) agree where they overlap: the first from `step` on is
      the head of the second. They share `|first| - step` code points, which
      is the clamped overlap only when the first chunk is full length, and
      less when it is clipped at the end of the text. */
  lemma ConsecutiveChunksOverlap(text: string, chunkSize: nat, overlap: int, i: nat)
    requires chunkSize >= 1 && overlap >= 0
    requires i + 1 < |ChunkSpans(text, chunkSize, overlap)|
    requires ChunkSpans(text, chunkSize, overlap)[i + 1].start
          == ChunkSpans(text, chunkSize, overlap)[i].start + Stride(chunkSize, overlap)
    ensures var spans := ChunkSpans(text, chunkSize, overlap);
      var step := Stride(chunkSize, overlap);
      && step <= |spans[i].text|
      && |spans[i].text| - step <= |spans[i + 1].text|
      && spans[i].text[step..] == spans[i + 1].text[..|spans[i].text| - step]
  {
    var spans := ChunkSpans(text, chunkSize, overlap);
    ChunkTextShape(text, chunkSize, overlap);
    WindowsOverlap(text, spans[i].start, chunkSize, Stride(chunkSize, overlap));
  }

  /** Code point `p` lies inside one of the chunks. */
  predicate Covers(cs: seq<Chunk>, p: nat) {
    exists i :: 0 <= i < |cs| && cs[i].start <= p < cs[i].start + |cs[i].text|
  }

  /** The window at `start` holds position `p` when `p` is less than one
      stride past it, so it is kept when `text[p]` is not whitespace. */
  lemma WindowKeepsPosition(text: string, start: nat, size: nat, step: nat, p: nat)
    requires 1 <= step <= size && start <= p < |text| && p < start + step && !IsSpace(text[p])
    ensures KeptAt(text, start, size) == [Chunk(start, Window(text, start, size))]
    ensures start + |Window(text, start, size)| > p
  {
    var w := Window(text, start, size);
    assert w[p - start] == text[p];
  }

  lemma CoversAppend(a: seq<Chunk>, b: seq<Chunk>, p: nat)
    requires Covers(a, p) || Covers(b, p)
    ensures Covers(a + b, p)
  {
    if Covers(a, p) {
      var i :| 0 <= i < |a| && a[i].start <= p < a[i].start + |a[i].text|;
      assert (a + b)[i] == a[i];
    } else {
      var j :| 0 <= j < |b| && b[j].start <= p < b[j].start + |b[j].text|;
      assert (a + b)[|a| + j] == b[j];
    }
  }

  /** Without a negative overlap the windows leave no gap, so every
      non-whitespace code point at or after cursor `start` lies in a kept chunk. */
  lemma {:induction false} ChunksFromCover(text: string, start: nat, size: nat, step: nat, p: nat)
    requires 1 <= step <= size && start <= p < |text| && !IsSpace(text[p])
    ensures Covers(ChunksFrom(text, start, size, step), p)
    decreases |text| - start
  {
    if p < start + step {
      CoverHere(text, start, size, step, p);
    } else {
      ChunksFromCover(text, start + step, size, step, p);
      CoverLater(text, start, size, step, p);
    }
  }

  /** A position less than one stride past the cursor lies in the window
      kept there. */
  lemma CoverHere(text: string, start: nat, size: nat, step: nat, p: nat)
    requires 1 <= step <= size && start <= p < |text| && p < start + step && !IsSpace(text[p])
    ensures Covers(ChunksFrom(text, start, size, step), p)
  {
    var kept := KeptAt(text, start, size);
    var rest := ChunksFrom(text, start + step, size, step);
    assert ChunksFrom(text, start, size, step) == kept + rest;
    WindowKeepsPosition(text, start, size, step, p);
    assert kept[0].start <= p < kept[0].start + |kept[0].text|;
    CoversAppend(kept, rest, p);
  }

  /** A position covered from the next cursor on is covered from `start` on. */
  lemma CoverLater(text: string, start: nat, size: nat, step: nat, p: nat)
    requires step >= 1 && start < |text|
    requires Covers(ChunksFrom(text, start + step, size, step), p)
    ensures Covers(ChunksFrom(text, start, size, step), p)
  {
    var kept := KeptAt(text, start, size);
    var rest := ChunksFrom(text, start + step, size, step);
    assert ChunksFrom(text, start, size, step) == kept + rest;
    CoversAppend(kept, rest, p);
  }

  /** Coverage: with `overlap >= 0`, every non-whitespace code point of the
      text falls inside some returned chunk. */
  lemma ChunkTextCoversText(text: string, chunkSize: nat, overlap: int, p: nat)
    requires chunkSize >= 1 && overlap >= 0
    requires p < |text| && !IsSpace(text[p])
    ensures Covers(ChunkSpans(text, chunkSize, overlap), p)
  {
    ChunksFromCover(text, 0, chunkSize, Stride(chunkSize, overlap), p);
  }

  /** The first `step` code points of each chunk, concatenated in order. */
  function Reassemble(chunks: seq<string>, step: nat): string {
    if chunks == [] then []
    else (if |chunks[0]| <= step then chunks[0] else chunks[0][..step]) + Reassemble(chunks[1..], step)
  }

  /** No window the loop visits from `start` on is blank. */
  predicate NoBlankWindow(text: string, start: nat, size: nat, step: nat)
    requires step >= 1
    decreases |text| - start
  {
    start >= |text| || (!IsBlank(Window(text, start, size)) && NoBlankWindow(text, start + step, size, step))
  }

  lemma {:induction false} ReassembleFrom(text: string, start: nat, size: nat, step: nat)
    requires 1 <= step <= size && start <= |text|
    requires NoBlankWindow(text, start, size, step)
    ensures Reassemble(Texts(ChunksFrom(text, start, size, step)), step) == text[start..]
    decreases |text| - start, 1
  {
    if start + step < |text| {
      ReassembleFromMore(text, start, size, step);
    } else if start < |text| {
      ReassembleLast(text, start, size, step);
    }
  }

  lemma {:induction false} ReassembleFromMore(text: string, start: nat, size: nat, step: nat)
    requires 1 <= step <= size && start + step < |text|
    requires NoBlankWindow(text, start, size, step)
    ensures Reassemble(Texts(ChunksFrom(text, start, size, step)), step) == text[start..]
    decreases |text| - start, 0
  {
    ReassembleFrom(text, start + step, size, step);
    ReassembleStep(text, start, size, step);
  }

  lemma ReassembleStep(text: string, start: nat, size: nat, step: nat)
    requires 1 <= step <= size && start + step < |text|
    requires NoBlankWindow(text, start, size, step)
    requires Reassemble(Texts(ChunksFrom(text, start + step, size, step)), step) == text[start + step..]
    ensures Reassemble(Texts(ChunksFrom(text, start, size, step)), step) == text[start..]
  {
    var w := Window(text, start, size);
    var rest := Texts(ChunksFrom(text, start + step, size, step));
    FirstWindowKept(text, start, size, step);
    ReassembleCons(w, rest, step);
    assert w[..step] == text[start..start + step];
    SplitAt(text, start, start + step);
  }

  lemma ReassembleLast(text: string, start: nat, size: nat, step: nat)
    requires 1 <= step <= size && start < |text| <= start + step
    requires NoBlankWindow(text, start, size, step)
    ensures Reassemble(Texts(ChunksFrom(text, start, size, step)), step) == text[start..]
  {
    var w := Window(text, start, size);
    FirstWindowKept(text, start, size, step);
    assert ChunksFrom(text, start + step, size, step) == [];
    ReassembleCons(w, [], step);
    assert w == text[start..];
  }

  lemma ReassembleCons(w: string, rest: seq<string>, step: nat)
    ensures Reassemble([w] + rest, step) == (if |w| <= step then w else w[..step]) + Reassemble(rest, step)
  {
    assert ([w] + rest)[1..] == rest;
  }

  lemma FirstWindowKept(text: string, start: nat, size: nat, step: nat)
    requires 1 <= step && start < |text|
    requires NoBlankWindow(text, start, size, step)
    ensures Texts(ChunksFrom(text, start, size, step))
         == [Window(text, start, size)] + Texts(ChunksFrom(text, start + step, size, step))
  {
    ChunksFromStep(text, start, size, step);
    TextsAppend(KeptAt(text, start, size), ChunksFrom(text, start + step, size, step));
  }

  lemma SplitAt(text: string, i: nat, j: nat)
    requires i <= j <= |text|
    ensures text[i..] == text[i..j] + text[j..]
  {
  }

  /** Round trip: with `overlap >= 0` and no whitespace-only window, taking
      the first `chunk_size - overlap'` code points of every chunk and
      concatenating them gives back the text exactly. */
  lemma ChunkTextReassembles(text: string, chunkSize: nat, overlap: int)
    requires chunkSize >= 1 && overlap >= 0
    requires NoBlankWindow(text, 0, chunkSize, Stride(chunkSize, overlap))
    ensures Reassemble(ChunkText(text, chunkSize, overlap), Stride(chunkSize, overlap)) == text
  {
    ReassembleFrom(text, 0, chunkSize, Stride(chunkSize, overlap));
  }

  /** The worked example of the default configuration (500/50) on a
      1200-character text without whitespace: chunks at offsets 0, 450 and
      900, the first two full-size, the last 300 long, and the last 50 code
      points of the first chunk are the first 50 of the second. */
  lemma DefaultsOn1200Characters(text: string)
    requires |text| == 1200
    requires forall i :: 0 <= i < |text| ==> !IsSpace(text[i])
    ensures var spans := ChunkSpans(text, DefaultChunkSize, DefaultChunkOverlap);
      && Starts(spans) == [0, 450, 900]
      && |spans[0].text| == 500 && |spans[1].text| == 500 && |spans[2].text| == 300
      && spans[0].text[450..500] == spans[1].text[..50]
  {
    var size := DefaultChunkSize;
    var step := Stride(DefaultChunkSize, DefaultChunkOverlap);
    assert step == 450;
    NoSpaceKept(text, 0, size, step);
    NoSpaceKept(text, 450, size, step);
    NoSpaceKept(text, 900, size, step);
    assert ChunksFrom(text, 1350, size, step) == [];
    var spans := ChunkSpans(text, size, DefaultChunkOverlap);
    assert spans == [Chunk(0, Window(text, 0, size)), Chunk(450, Window(text, 450, size)), Chunk(900, Window(text, 900, size))];
    WindowsOverlap(text, 0, size, step);
  }

  /** On a text without whitespace every window is kept. */
  lemma NoSpaceKept(text: string, s: nat, size: nat, step: nat)
    requires step >= 1 && size >= 1 && s < |text|
    requires forall i :: 0 <= i < |text| ==> !IsSpace(text[i])
    ensures ChunksFrom(text, s, size, step) == [Chunk(s, Window(text, s, size))] + ChunksFrom(text, s + step, size, step)
  {
    assert Window(text, s, size)[0] == text[s];
    ChunksFromStep(text, s, size, step);
  }
}

=== FILE: document_processor.dfy ===
/** Per-document ingestion (`process_document` and `create_chunk_metadata`):
    the extracted text is stripped, chunked, and every chunk is embedded and
    given a metadata record. The embedding service and the clock are
    parameters; an embedding failure on any chunk aborts the whole document. */
module DocumentProcessor {
  import opened Wrappers
  import opened PyText
  import opened Chunker

  /** An embedding vector; its numbers are never inspected. */
  type Vector = seq<real>

  /** The six-field payload stored next to each vector. */
  datatype ChunkMetadata = ChunkMetadata(
    text: string,
    sourceFile: string,
    chunkIndex: nat,
    totalChunks: nat,
    uploadTimestamp: string,
    fileType: string)

  /** An uploaded file: its name, its MIME type, and what text extraction
      (PDF pages joined by newlines, or UTF-8 decoding) produced before
      stripping — or the message of the exception extraction raised. */
  datatype UploadedFile = UploadedFile(name: string, fileType: string, extracted: Result<string, string>)

  /** What `process_document` returns: `(vectors, metadata_list, chunk_count)`. */
  datatype Processed = Processed(vectors: seq<Vector>, metadata: seq<ChunkMetadata>, count: nat)

  /** `read_uploaded_file`: both readers return the extracted text stripped,
      so what they hand on is empty exactly when extraction produced only
      whitespace. */
  function ReadUploadedFile(f: UploadedFile): (r: Result<string, string>)
    ensures r.Failure? <==> f.extracted.Failure?
    ensures r.Failure? ==> r.error == f.extracted.error
    ensures r.Success? ==> r.value == Strip(f.extracted.value) && (r.value == [] <==> IsBlank(f.extracted.value))
  {
    match f.extracted
    case Success(raw) => Success(Strip(raw))
    case Failure(e) => Failure(e)
  }

  /** `create_chunk_metadata`; `timestamp` is the clock reading taken when
      the record is built. */
  function CreateChunkMetadata(chunkText: string, chunkIndex: nat, totalChunks: nat,
                               sourceFileName: string, fileType: string, timestamp: string): (m: ChunkMetadata)
    ensures m.text == chunkText && m.chunkIndex == chunkIndex && m.totalChunks == totalChunks
    ensures m.sourceFile == sourceFileName && m.fileType == fileType && m.uploadTimestamp == timestamp
  {
    ChunkMetadata(chunkText, sourceFileName, chunkIndex, totalChunks, timestamp, fileType)
  }

  /** Embeds every chunk in order, stopping at the first failure. On success
      vector `i` is the embedding of chunk `i`; the call fails exactly when
      some chunk fails, with the message of the first chunk that does. */
  function EmbedAll(chunks: seq<string>, embed: string -> Result<Vector, string>): (r: Result<seq<Vector>, string>)
    ensures r.Success? <==> forall i :: 0 <= i < |chunks| ==> embed(chunks[i]).Success?
    ensures r.Success? ==> |r.value| == |chunks|
    ensures r.Success? ==> forall i :: 0 <= i < |chunks| ==> r.value[i] == embed(chunks[i]).value
    ensures r.Failure? ==> exists i :: 0 <= i < |chunks| && embed(chunks[i]) == Failure(r.error)
                                       && forall j :: 0 <= j < i ==> embed(chunks[j]).Success?
  {
    if chunks == [] then Success([])
    else
      match embed(chunks[0])
      case Failure(e) => Failure(e)
      case Success(v) =>
        match EmbedAll(chunks[1..], embed)
        case Failure(e) =>
          EmbedAllFailureShift(chunks, embed, e);
          Failure(e)
        case Success(vs) => Success([v] + vs)
  }

  lemma EmbedAllFailureShift(chunks: seq<string>, embed: string -> Result<Vector, string>, e: string)
    requires chunks != [] && embed(chunks[0]).Success?
    requires exists i :: 0 <= i < |chunks[1..]| && embed(chunks[1..][i]) == Failure(e)
                         && forall j :: 0 <= j < i ==> embed(chunks[1..][j]).Success?
    ensures exists i :: 0 <= i < |chunks| && embed(chunks[i]) == Failure(e)
                        && forall j :: 0 <= j < i ==> embed(chunks[j]).Success?
  {
    var i :| 0 <= i < |chunks[1..]| && embed(chunks[1..][i]) == Failure(e)
             && forall j :: 0 <= j < i ==> embed(chunks[1..][j]).Success?;
    assert embed(chunks[i + 1]) == Failure(e);
    forall j | 0 <= j < i + 1 ensures embed(chunks[j]).Success? {
      if j > 0 {
        assert chunks[j] == chunks[1..][j - 1];
      }
    }
  }

  /** The metadata records of a document's chunks, record `i` built with the
      clock reading `now(i)`. */
  function MetadataFor(chunks: seq<string>, name: string, fileType: string, now: nat -> string): seq<ChunkMetadata> {
    seq(|chunks|, i requires 0 <= i < |chunks| => CreateChunkMetadata(chunks[i], i, |chunks|, name, fileType, now(i)))
  }

  /** `process_document`, with `chunk_text` called at the given window size
      and overlap (the configured defaults in the application). */
  function ProcessDocument(f: UploadedFile, chunkSize: nat, overlap: int,
                           embed: string -> Result<Vector, string>, now: nat -> string): (r: Result<Processed, string>)
    requires chunkSize >= 1
    ensures f.extracted.Failure? ==> r == Failure(f.extracted.error)
    ensures f.extracted.Success? && IsBlank(f.extracted.value) ==> r == Success(Processed([], [], 0))
    ensures r.Success? ==> |r.value.vectors| == |r.value.metadata| == r.value.count
    ensures f.extracted.Success? ==>
      var chunks := ChunkText(Strip(f.extracted.value), chunkSize, overlap);
      && (r.Success? <==> forall i :: 0 <= i < |chunks| ==> embed(chunks[i]).Success?)
      && (r.Success? ==> r.value.count == |chunks|)
      && (r.Success? ==> forall i :: 0 <= i < |chunks| ==>
            && r.value.vectors[i] == embed(chunks[i]).value
            && r.value.metadata[i] == ChunkMetadata(chunks[i], f.name, i, |chunks|, now(i), f.fileType))
      && (r.Failure? ==> exists i :: 0 <= i < |chunks| && embed(chunks[i]) == Failure(r.error))
  {
    match ReadUploadedFile(f)
    case Failure(e) => Failure(e)
    case Success(text) =>
      if text == [] then Success(Processed([], [], 0))
      else
        var chunks := ChunkText(text, chunkSize, overlap);
        match EmbedAll(chunks, embed)
        case Failure(e) => Failure(e)
        case Success(vectors) => Success(Processed(vectors, MetadataFor(chunks, f.name, f.fileType, now), |chunks|))
  }

  /** A stripped, non-empty text always yields at least one chunk: it starts
      with a non-whitespace code point, and the first window holds it. */
  lemma StrippedTextHasChunk(raw: string, chunkSize: nat, overlap: int)
    requires chunkSize >= 1 && !IsBlank(raw)
    ensures |ChunkText(Strip(raw), chunkSize, overlap)| >= 1
  {
    var text := Strip(raw);
    var step := Stride(chunkSize, overlap);
    assert Window(text, 0, chunkSize)[0] == text[0];
    ChunksFromStep(text, 0, chunkSize, step);
  }

  /** A successfully processed document reports zero chunks exactly when
      extraction produced only whitespace — the "No text extracted" case. */
  lemma NoChunksOnlyForBlankText(f: UploadedFile, chunkSize: nat, overlap: int,
                                 embed: string -> Result<Vector, string>, now: nat -> string)
    requires chunkSize >= 1
    ensures var r := ProcessDocument(f, chunkSize, overlap, embed, now);
      r.Success? ==> f.extracted.Success? && (r.value.count == 0 <==> IsBlank(f.extracted.value))
  {
    if f.extracted.Success? && !IsBlank(f.extracted.value) {
      StrippedTextHasChunk(f.extracted.value, chunkSize, overlap);
    }
  }

  /** Every record of one document names the same file and type, carries
      the chunk count as `total_chunks`, and has `chunk_index < total_chunks`. */
  lemma MetadataIsConsistent(f: UploadedFile, chunkSize: nat, overlap: int,
                             embed: string -> Result<Vector, string>, now: nat -> string)
    requires chunkSize >= 1
    ensures var r := ProcessDocument(f, chunkSize, overlap, embed, now);
      r.Success? ==> var p := r.value; forall i :: 0 <= i < |p.metadata| ==>
        && p.metadata[i].sourceFile == f.name
        && p.metadata[i].fileType == f.fileType
        && p.metadata[i].chunkIndex == i < p.metadata[i].totalChunks == p.count
        && 0 < |p.metadata[i].text| <= chunkSize
        && !IsBlank(p.metadata[i].text)
  {
    if f.extracted.Success? {
      ChunkTextShape(Strip(f.extracted.value), chunkSize, overlap);
    }
  }
}

=== FILE: prompt.dfy ===
/** `build_rag_prompt`: the retrieved chunks are joined with blank lines and
    placed, with the question, into a fixed instruction template. */
module Prompt {

  /** The separator `"\n\n".join` puts between chunks. */
  const Sep: string := "\n\n"

  /** The two fixed instruction lines and the blank line after them. */
  const Instructions: string :=
    "You are a helpful assistant. Use the provided context to answer the question.\n"
    + "If the answer isn't in the context, say you don't know.\n\n"

  const ContextHeader: string := "Context:\n"
  const QuestionHeader: string := "\n\nQuestion: "
  const AnswerCue: string := "\n\nAnswer:"

  /** Everything before the context: the instructions and the context label. */
  const Preamble: string := Instructions + ContextHeader

  /** `piece` sits verbatim in `s` starting at position `at`. */
  predicate Occurs(piece: string, s: string, at: int) {
    0 <= at && at + |piece| <= |s| && s[at..at + |piece|] == piece
  }

  /** `"\n\n".join(chunks)`. */
  function Join(chunks: seq<string>): (r: string)
    ensures |chunks| > 0 ==> Occurs(chunks[0], r, 0)
    ensures |chunks| > 0 ==> Occurs(chunks[|chunks| - 1], r, |r| - |chunks[|chunks| - 1]|)
  {
    if |chunks| == 0 then ""
    else if |chunks| == 1 then chunks[0]
    else
      var head, rest := chunks[0] + Sep, Join(chunks[1..]);
      assert chunks[|chunks| - 1] == chunks[1..][|chunks| - 2];
      assert (head + rest)[..|chunks[0]|] == head[..|chunks[0]|];
      assert (head + rest)[|head|..] == rest;
      head + rest
  }

  /** Where chunk `k` begins in the joined context: every earlier chunk
      followed by one separator. */
  function Offset(chunks: seq<string>, k: nat): nat
    requires k <= |chunks|
  {
    if k == 0 then 0 else |chunks[0]| + |Sep| + Offset(chunks[1..], k - 1)
  }

  /** The joined context, read position by position: chunk `k` sits
      verbatim at `Offset(chunks, k)`. */
  lemma {:induction false} JoinAt(chunks: seq<string>, k: nat)
    requires k < |chunks|
    ensures Occurs(chunks[k], Join(chunks), Offset(chunks, k))
  {
    if k > 0 {
      var tail := chunks[1..];
      JoinAt(tail, k - 1);
      assert tail[k - 1] == chunks[k];
      JoinCons(chunks);
      OccursAfter(chunks[k], chunks[0] + Sep, Join(tail), Offset(tail, k - 1));
    }
  }

  /** Unfolding `Join` once on two or more chunks. */
  lemma JoinCons(chunks: seq<string>)
    requires |chunks| > 1
    ensures Join(chunks) == (chunks[0] + Sep) + Join(chunks[1..])
  {
  }

  /** A piece found in `b` is found in `a + b`, shifted by `a`. */
  lemma OccursAfter(piece: string, a: string, b: string, at: nat)
    requires Occurs(piece, b, at)
    ensures Occurs(piece, a + b, |a| + at)
  {
    SliceAfter(a, b, at, at + |piece|);
  }

  /** Between chunk `k` and chunk `k + 1` of the joined context there is
      exactly one separator, so chunk `k + 1` starts right after it. */
  lemma {:induction false} JoinSepAt(chunks: seq<string>, k: nat)
    requires k + 1 < |chunks|
    ensures Offset(chunks, k) + |chunks[k]| + |Sep| == Offset(chunks, k + 1)
    ensures Occurs(Sep, Join(chunks), Offset(chunks, k) + |chunks[k]|)
  {
    if k == 0 {
      assert Join(chunks) == (chunks[0] + Sep) + Join(chunks[1..]);
      assert (chunks[0] + Sep)[|chunks[0]|..] == Sep;
    } else {
      var tail := chunks[1..];
      JoinSepAt(tail, k - 1);
      assert tail[k - 1] == chunks[k];
      var o := Offset(tail, k - 1);
      assert Join(chunks) == (chunks[0] + Sep) + Join(tail);
      SliceAfter(chunks[0] + Sep, Join(tail), o + |chunks[k]|, Offset(tail, k));
    }
  }

  lemma SliceAfter(a: string, b: string, lo: nat, hi: nat)
    requires lo <= hi <= |b|
    ensures (a + b)[|a| + lo..|a| + hi] == b[lo..hi]
  {
  }

  /** The joined context is exactly as long as the chunks and the
      separators between them. */
  lemma {:induction false} JoinLength(chunks: seq<string>)
    requires chunks != []
    ensures |Join(chunks)| + |Sep| == Offset(chunks, |chunks|)
  {
    if |chunks| > 1 {
      JoinLength(chunks[1..]);
    }
  }

  /** No chunks give an empty context, a single chunk gives itself. */
  lemma JoinSmall(c: string)
    ensures Join([]) == ""
    ensures Join([c]) == c
  {
  }

  /** The template with its instruction text as a parameter: `preamble`,
      then the context, the question label, the question and the answer cue. */
  function Fill(preamble: string, context: string, question: string): (p: string)
    ensures |p| == |preamble| + |context| + |QuestionHeader| + |question| + |AnswerCue|
    ensures Occurs(preamble, p, 0)
    ensures Occurs(context, p, |preamble|)
    ensures Occurs(QuestionHeader, p, |preamble| + |context|)
    ensures Occurs(question, p, |preamble| + |context| + |QuestionHeader|)
    ensures Occurs(AnswerCue, p, |p| - |AnswerCue|)
  {
    Layout(preamble, context, QuestionHeader, question, AnswerCue);
    preamble + context + QuestionHeader + question + AnswerCue
  }

  /** `build_rag_prompt(question, context_chunks)`: the instructions, the
      context label and joined context, the question label and question, and
      the answer cue, in that order, with nothing escaped or cut. */
  function BuildRagPrompt(question: string, chunks: seq<string>): (p: string)
    ensures |p| == |Preamble| + |Join(chunks)| + |QuestionHeader| + |question| + |AnswerCue|
    ensures Occurs(Preamble, p, 0)
    ensures Occurs(Join(chunks), p, |Preamble|)
    ensures Occurs(QuestionHeader, p, |Preamble| + |Join(chunks)|)
    ensures Occurs(question, p, |Preamble| + |Join(chunks)| + |QuestionHeader|)
    ensures Occurs(AnswerCue, p, |p| - |AnswerCue|)
  {
    var context := Join(chunks);
    var p := Fill(Preamble, context, question);
    assert |p| == |Preamble| + |context| + |QuestionHeader| + |question| + |AnswerCue|;
    p
  }

  /** Every retrieved chunk appears verbatim in the prompt, at its offset
      in the context after the preamble. */
  lemma ChunkInPrompt(question: string, chunks: seq<string>, k: nat)
    requires k < |chunks|
    ensures Occurs(chunks[k], BuildRagPrompt(question, chunks), |Preamble| + Offset(chunks, k))
  {
    ChunkInFill(Preamble, question, chunks, k);
  }

  /** Chunk `k` of the context sits at its offset after any preamble. */
  lemma ChunkInFill(preamble: string, question: string, chunks: seq<string>, k: nat)
    requires k < |chunks|
    ensures Occurs(chunks[k], Fill(preamble, Join(chunks), question), |preamble| + Offset(chunks, k))
  {
    JoinAt(chunks, k);
    OccursWithin(chunks[k], Join(chunks), Fill(preamble, Join(chunks), question), |preamble|, Offset(chunks, k));
  }

  /** A piece found at `o` inside `t`, itself found at `a` inside `s`, is
      found at `a + o` inside `s`. */
  lemma OccursWithin(piece: string, t: string, s: string, a: int, o: int)
    requires Occurs(t, s, a) && Occurs(piece, t, o)
    ensures Occurs(piece, s, a + o)
  {
    forall i | 0 <= i < |piece| ensures s[a + o + i] == piece[i] {
      assert piece[i] == t[o + i];
      assert t[o + i] == s[a + o + i];
    }
    assert s[a + o..a + o + |piece|] == piece;
  }

  /** The layout of five strings written one after another. */
  lemma Layout(a: string, b: string, c: string, d: string, e: string)
    ensures Occurs(a, a + b + c + d + e, 0)
    ensures Occurs(b, a + b + c + d + e, |a|)
    ensures Occurs(c, a + b + c + d + e, |a| + |b|)
    ensures Occurs(d, a + b + c + d + e, |a| + |b| + |c|)
    ensures Occurs(e, a + b + c + d + e, |a| + |b| + |c| + |d|)
  {
    var p := a + b + c + d + e;
    assert p[..|a|] == a;
    assert p[|a|..|a| + |b|] == b;
    assert p[|a| + |b|..|a| + |b| + |c|] == c;
    assert p[|a| + |b| + |c|..|a| + |b| + |c| + |d|] == d;
    assert p[|a| + |b| + |c| + |d|..] == e;
  }

  /** Reads the question back out of a prompt, given its length: it sits
      just before the answer cue. */
  function QuestionOf(p: string, n: nat): string
    requires |Preamble| + |QuestionHeader| + n + |AnswerCue| <= |p|
  {
    p[|p| - |AnswerCue| - n..|p| - |AnswerCue|]
  }

  /** Reads the joined context back out of a prompt, given the question's
      length: it lies between the preamble and the question label. */
  function ContextOf(p: string, n: nat): string
    requires |Preamble| + |QuestionHeader| + n + |AnswerCue| <= |p|
  {
    p[|Preamble|..|p| - |AnswerCue| - n - |QuestionHeader|]
  }

  /** The template loses nothing once the question's length is known: the
      question and the joined context are recovered from the prompt. Nothing
      is escaped, so without the length a `"\n\nQuestion: "` inside a chunk
      or a question makes the split ambiguous. */
  lemma PromptRoundTrip(question: string, chunks: seq<string>)
    ensures |Preamble| + |QuestionHeader| + |question| + |AnswerCue| <= |BuildRagPrompt(question, chunks)|
    ensures QuestionOf(BuildRagPrompt(question, chunks), |question|) == question
    ensures ContextOf(BuildRagPrompt(question, chunks), |question|) == Join(chunks)
  {
    FillRoundTrip(Preamble, Join(chunks), question);
  }

  /** Two questions of the same length give the same prompt only together
      with the same joined context, and only when they are equal. */
  lemma PromptDeterminesPair(q1: string, c1: seq<string>, q2: string, c2: seq<string>)
    requires |q1| == |q2| && BuildRagPrompt(q1, c1) == BuildRagPrompt(q2, c2)
    ensures q1 == q2 && Join(c1) == Join(c2)
  {
    PromptRoundTrip(q1, c1);
    PromptRoundTrip(q2, c2);
  }

  /** Without the question's length the prompt does not determine the
      pair: a question label moved from the question into the context gives
      the same prompt. */
  lemma PromptSplitIsAmbiguous()
    ensures BuildRagPrompt("y" + QuestionHeader + "z", ["x"]) == BuildRagPrompt("z", ["x" + QuestionHeader + "y"])
  {
    JoinSmall("x");
    JoinSmall("x" + QuestionHeader + "y");
  }

  /** The context and the question are read back from a filled template
      by position, counting from both ends. */
  lemma FillRoundTrip(preamble: string, context: string, question: string)
    ensures var p := Fill(preamble, context, question);
      && |p| - |AnswerCue| - |question| - |QuestionHeader| == |preamble| + |context|
      && p[|p| - |AnswerCue| - |question|..|p| - |AnswerCue|] == question
      && p[|preamble|..|p| - |AnswerCue| - |question| - |QuestionHeader|] == context
  {
  }
}

=== FILE: pytext.dfy ===
/** The parts of Python's `str` the core relies on: `isspace` on one code
    point and argument-less `strip`. Strings are sequences of Unicode code
    points, as Python's are, so `|s|` is Python's `len(s)`. */
module PyText {

  /** Python's `str.isspace` for a single code point: the ASCII controls
      TAB..CR, the four information separators and SPACE, NEL, NBSP, OGHAM
      SPACE MARK, the typographic spaces U+2000..U+200A, LINE and PARAGRAPH
      SEPARATOR, NARROW NBSP, MEDIUM MATHEMATICAL SPACE and IDEOGRAPHIC SPACE. */
  predicate IsSpace(c: char) {
    || ('\t' <= c <= '\r')
    || ('\U{1C}' <= c <= ' ')
    || c == '\U{85}'
    || c == '\U{A0}'
    || c == '\U{1680}'
    || ('\U{2000}' <= c <= '\U{200A}')
    || c == '\U{2028}' || c == '\U{2029}'
    || c == '\U{202F}'
    || c == '\U{205F}'
    || c == '\U{3000}'
  }

  /** Every code point of `s` is whitespace (vacuously true of ""). */
  predicate IsBlank(s: string) {
    forall i {:trigger IsSpace(s[i])} :: 0 <= i < |s| ==> IsSpace(s[i])
  }

  /** `s.lstrip()`: drops the longest all-whitespace prefix. */
  function TrimLeft(s: string): (r: string)
    ensures |r| <= |s| && r == s[|s| - |r|..]
    ensures forall i :: 0 <= i < |s| - |r| ==> IsSpace(s[i])
    ensures r == [] || !IsSpace(r[0])
  {
    if |s| > 0 && IsSpace(s[0]) then TrimLeft(s[1..]) else s
  }

  /** `s.rstrip()`: drops the longest all-whitespace suffix. */
  function TrimRight(s: string): (r: string)
    ensures |r| <= |s| && r == s[..|r|]
    ensures forall i :: |r| <= i < |s| ==> IsSpace(s[i])
    ensures r == [] || !IsSpace(r[|r| - 1])
  {
    if |s| > 0 && IsSpace(s[|s| - 1]) then TrimRight(s[..|s| - 1]) else s
  }

  /** Number of leading whitespace code points `lstrip` removes. */
  function LeadingSpaces(s: string): nat {
    |s| - |TrimLeft(s)|
  }

  /** `s.strip()`: the slice of `s` left after removing whitespace at both
      ends. It is empty exactly when `s` is blank, and otherwise begins and
      ends with a non-whitespace code point. */
  function Strip(s: string): (r: string)
    ensures |r| <= |s|
    ensures r == [] <==> IsBlank(s)
    ensures r != [] ==> !IsSpace(r[0]) && !IsSpace(r[|r| - 1])
  {
    StripSlice(s);
    StripBlank(s);
    TrimRight(TrimLeft(s))
  }

  lemma StripSlice(s: string)
    ensures TrimRight(TrimLeft(s)) != [] ==> !IsSpace(TrimRight(TrimLeft(s))[0])
  {
    var l := TrimLeft(s);
    var r := TrimRight(l);
    if r != [] {
      assert r[0] == l[0];
    }
  }

  /** What `strip` returns is a contiguous slice of its input, starting
      right after the leading whitespace. */
  lemma StripIsSlice(s: string)
    ensures LeadingSpaces(s) + |Strip(s)| <= |s|
    ensures Strip(s) == s[LeadingSpaces(s)..LeadingSpaces(s) + |Strip(s)|]
  {
    var l := TrimLeft(s);
    var r := TrimRight(l);
    SliceOfSuffix(s, |s| - |l|, |r|);
  }

  lemma SliceOfSuffix(s: string, k: nat, n: nat)
    requires k + n <= |s|
    ensures s[k..][..n] == s[k..k + n]
  {
  }

  lemma StripBlank(s: string)
    ensures TrimRight(TrimLeft(s)) == [] <==> IsBlank(s)
  {
    var l := TrimLeft(s);
    if TrimRight(l) == [] {
      assert l == [];
    }
  }

  /** Stripping twice is stripping once: the extracted document text the
      chunker receives is already a fixed point of `strip`. */
  lemma StripIdempotent(s: string)
    ensures Strip(Strip(s)) == Strip(s)
  {
    var r := Strip(s);
    if r != [] {
      assert TrimLeft(r) == r;
      assert TrimRight(r) == r;
    }
  }
}

=== FILE: streaming.dfy ===
/** The line loop of `generate_answer_streaming` and the answer the query
    page accumulates from it. Each streamed line is abstracted to what the
    loop distinguishes: an empty line, a line that is not valid JSON, or a
    JSON object with its `response` (`""` when absent) and `done` (`false`
    when absent) fields. */
module Streaming {

  datatype Line = Empty | Malformed | Obj(response: string, done: bool)

  /** The line that ends generation. */
  predicate IsDone(l: Line) {
    l.Obj? && l.done
  }

  /** A fragment the loop yields: a non-empty `response` of a JSON object line. */
  predicate Yields(l: Line) {
    l.Obj? && l.response != []
  }

  /** The fragments the generator yields for the given lines, in order. */
  function Fragments(lines: seq<Line>): (r: seq<string>)
    ensures forall i :: 0 <= i < |r| ==> r[i] != []
    ensures |r| <= |lines|
  {
    if lines == [] then []
    else
      var here := if Yields(lines[0]) then [lines[0].response] else [];
      if IsDone(lines[0]) then here else here + Fragments(lines[1..])
  }

  /** How many lines the loop reads: up to and including the first `done`
      line, or all of them. */
  function Consumed(lines: seq<Line>): (n: nat)
    ensures n <= |lines|
    ensures lines != [] ==> n > 0
  {
    if lines == [] then 0
    else if IsDone(lines[0]) then 1
    else 1 + Consumed(lines[1..])
  }

  /** The loop reads exactly through the first `done` line: no line before
      the last one read is `done`, and the last one read is `done` unless
      the stream ran out. */
  lemma {:induction false} ConsumedStopsAtFirstDone(lines: seq<Line>)
    ensures forall i :: 0 <= i < Consumed(lines) - 1 ==> !IsDone(lines[i])
    ensures Consumed(lines) < |lines| ==> IsDone(lines[Consumed(lines) - 1])
  {
    if lines != [] && !IsDone(lines[0]) {
      var tail := lines[1..];
      ConsumedStopsAtFirstDone(tail);
      forall i | 0 <= i < Consumed(lines) - 1 ensures !IsDone(lines[i]) {
        if i > 0 {
          assert lines[i] == tail[i - 1];
        }
      }
    }
  }

  /** Reference definition: the non-empty responses of the JSON object lines,
      with no regard for `done`. */
  function Responses(lines: seq<Line>): seq<string> {
    if lines == [] then []
    else (if Yields(lines[0]) then [lines[0].response] else []) + Responses(lines[1..])
  }

  lemma ResponsesAppend(a: seq<Line>, b: seq<Line>)
    ensures Responses(a + b) == Responses(a) + Responses(b)
  {
    if a != [] {
      assert (a + b)[0] == a[0];
      assert (a + b)[1..] == a[1..] + b;
      ResponsesAppend(a[1..], b);
      var here := if Yields(a[0]) then [a[0].response] else [];
      assert Responses(a + b) == here + Responses(a[1..] + b);
      assert here + (Responses(a[1..]) + Responses(b)) == (here + Responses(a[1..])) + Responses(b);
    } else {
      assert a + b == b;
    }
  }

  /** What is yielded is exactly the non-empty responses among the lines
      read, and the lines read stop at the first `done`. */
  lemma {:induction false} FragmentsAreResponsesUntilDone(lines: seq<Line>)
    ensures Fragments(lines) == Responses(lines[..Consumed(lines)])
  {
    if lines != [] {
      var n := Consumed(lines);
      if IsDone(lines[0]) {
        assert lines[..n] == [lines[0]];
      } else {
        FragmentsAreResponsesUntilDone(lines[1..]);
        assert lines[..n] == [lines[0]] + lines[1..][..n - 1];
        ResponsesAppend([lines[0]], lines[1..][..n - 1]);
      }
    }
  }

  /** The loop is a left-to-right fold: reading `a` then `b` yields what `a`
      yields, followed — only if `a` held no `done` line — by what `b` yields. */
  lemma {:induction false} FragmentsAppend(a: seq<Line>, b: seq<Line>)
    ensures (exists i :: 0 <= i < |a| && IsDone(a[i])) ==> Fragments(a + b) == Fragments(a)
    ensures (forall i :: 0 <= i < |a| ==> !IsDone(a[i])) ==> Fragments(a + b) == Fragments(a) + Fragments(b)
  {
    if a != [] {
      assert (a + b)[0] == a[0];
      assert (a + b)[1..] == a[1..] + b;
      FragmentsAppend(a[1..], b);
      if !IsDone(a[0]) {
        if exists i :: 0 <= i < |a| && IsDone(a[i]) {
          var i :| 0 <= i < |a| && IsDone(a[i]);
          assert IsDone(a[1..][i - 1]);
        }
        if forall i :: 0 <= i < |a| ==> !IsDone(a[i]) {
          assert forall i :: 0 <= i < |a[1..]| ==> !IsDone(a[1..][i]) by {
            forall i | 0 <= i < |a[1..]| ensures !IsDone(a[1..][i]) {
              assert a[1..][i] == a[i + 1];
            }
          }
        }
      }
    } else {
      assert a + b == b;
    }
  }

  /** An empty or malformed line anywhere in the stream changes nothing:
      the loop skips it and goes on with the next line. */
  lemma NoiseIsSkipped(a: seq<Line>, noise: Line, b: seq<Line>)
    requires noise == Empty || noise == Malformed
    ensures Fragments(a + [noise] + b) == Fragments(a + b)
  {
    FragmentsAppend(a, [noise] + b);
    FragmentsAppend(a, b);
    assert a + [noise] + b == a + ([noise] + b);
    assert ([noise] + b)[1..] == b;
  }

  /** Nothing after the first `done` line is yielded, however the stream
      continues; the `done` line's own response still is. */
  lemma StopsAtDone(a: seq<Line>, r: string, rest: seq<Line>)
    requires forall i :: 0 <= i < |a| ==> !IsDone(a[i])
    ensures Fragments(a + [Obj(r, true)] + rest)
            == Fragments(a) + (if r != [] then [r] else [])
  {
    var d := [Obj(r, true)];
    assert a + d + rest == a + (d + rest);
    FragmentsAppend(a, d + rest);
    assert (d + rest)[0] == Obj(r, true);
  }

  /** The answer the query page shows: the fragments concatenated in order. */
  function Concat(fragments: seq<string>): (answer: string)
    ensures fragments != [] ==> |fragments[0]| <= |answer| && answer[..|fragments[0]|] == fragments[0]
    ensures fragments != [] ==> |fragments[|fragments| - 1]| <= |answer| && answer[|answer| - |fragments[|fragments| - 1]|..] == fragments[|fragments| - 1]
  {
    if fragments == [] then "" else Concat(fragments[..|fragments| - 1]) + fragments[|fragments| - 1]
  }

  lemma ConcatSnoc(fragments: seq<string>, chunk: string)
    ensures Concat(fragments + [chunk]) == Concat(fragments) + chunk
  {
    assert (fragments + [chunk])[..|fragments|] == fragments;
  }

  /** One turn of the loop on the suffix starting at line `i`. */
  lemma LoopStep(lines: seq<Line>, i: nat)
    requires i < |lines|
    ensures Fragments(lines[i..]) ==
      (if Yields(lines[i]) then [lines[i].response] else [])
      + (if IsDone(lines[i]) then [] else Fragments(lines[i + 1..]))
    ensures Consumed(lines[i..]) == if IsDone(lines[i]) then 1 else 1 + Consumed(lines[i + 1..])
  {
    assert lines[i..][0] == lines[i];
    assert lines[i..][1..] == lines[i + 1..];
  }

  /** The loop has read `i` lines, yielded `fragments` and accumulated
      `answer`, and what is left to yield and to read comes from the rest. */
  predicate Progress(lines: seq<Line>, i: nat, fragments: seq<string>, answer: string) {
    && i <= |lines|
    && Fragments(lines) == fragments + Fragments(lines[i..])
    && Consumed(lines) == i + Consumed(lines[i..])
    && answer == Concat(fragments)
  }

  /** What one line adds to the fragments and to the answer. */
  function Added(l: Line): seq<string> {
    if Yields(l) then [l.response] else []
  }

  function AddedText(l: Line): string {
    if Yields(l) then l.response else ""
  }

  /** One turn of the loop on a line that is not `done`: the loop goes on. */
  lemma ProgressOn(lines: seq<Line>, i: nat, fragments: seq<string>, answer: string)
    requires i < |lines| && !IsDone(lines[i]) && Progress(lines, i, fragments, answer)
    ensures Progress(lines, i + 1, fragments + Added(lines[i]), answer + AddedText(lines[i]))
  {
    LoopStep(lines, i);
    if Yields(lines[i]) {
      ProgressYield(lines, i, fragments, answer);
    } else {
      assert fragments + [] == fragments;
      assert answer + "" == answer;
    }
  }

  /** The turn on the first `done` line: the loop ends with what it holds. */
  lemma ProgressDone(lines: seq<Line>, i: nat, fragments: seq<string>, answer: string)
    requires i < |lines| && IsDone(lines[i]) && Progress(lines, i, fragments, answer)
    ensures Fragments(lines) == fragments + Added(lines[i])
    ensures answer + AddedText(lines[i]) == Concat(fragments + Added(lines[i]))
    ensures Consumed(lines) == i + 1
  {
    LoopStep(lines, i);
    if Yields(lines[i]) {
      ProgressYield(lines, i, fragments, answer);
    } else {
      assert fragments + [] == fragments;
      assert answer + "" == answer;
    }
  }

  lemma ProgressYield(lines: seq<Line>, i: nat, fragments: seq<string>, answer: string)
    requires i < |lines| && Yields(lines[i])
    requires Fragments(lines) == fragments + Fragments(lines[i..]) && answer == Concat(fragments)
    requires Fragments(lines[i..]) == [lines[i].response] + (if IsDone(lines[i]) then [] else Fragments(lines[i + 1..]))
    ensures Fragments(lines) == (fragments + [lines[i].response]) + (if IsDone(lines[i]) then [] else Fragments(lines[i + 1..]))
    ensures answer + lines[i].response == Concat(fragments + [lines[i].response])
  {
    var c := lines[i].response;
    ConcatSnoc(fragments, c);
    var more := if IsDone(lines[i]) then [] else Fragments(lines[i + 1..]);
    assert fragments + ([c] + more) == (fragments + [c]) + more;
  }

  lemma ProgressEnd(lines: seq<Line>, fragments: seq<string>, answer: string)
    requires Progress(lines, |lines|, fragments, answer)
    ensures Fragments(lines) == fragments && Consumed(lines) == |lines|
  {
    assert lines[|lines|..] == [];
  }

  /** The streaming loop as the generator runs it, together with the
      accumulation `answer += chunk` done by its consumer. */
  method StreamAnswer(lines: seq<Line>) returns (fragments: seq<string>, answer: string, read: nat)
    ensures fragments == Fragments(lines)
    ensures answer == Concat(fragments)
    ensures read == Consumed(lines)
  {
    fragments := [];
    answer := "";
    var i := 0;
    while i < |lines|
      invariant Progress(lines, i, fragments, answer)
    {
      var line := lines[i];
      if IsDone(line) {
        ProgressDone(lines, i, fragments, answer);
      } else {
        ProgressOn(lines, i, fragments, answer);
      }
      fragments := fragments + Added(line);
      answer := answer + AddedText(line);
      if IsDone(line) {
        read := i + 1;
        return;
      }
      i := i + 1;
    }
    ProgressEnd(lines, fragments, answer);
    read := i;
  }
}

=== FILE: wrappers.dfy ===
/** Datatypes shared by the other modules: a payload field that may be
    absent, and the outcome of a call that may raise. */
module Wrappers {

  /** A field of a search hit's payload, which may be absent. */
  datatype Option<T> = None | Some(value: T)

  /** `payload.get(key, fallback)` on one field. */
  function ValueOr<T>(field: Option<T>, fallback: T): T {
    if field.Some? then field.value else fallback
  }

  /** A call that either returns a value or raises; `Failure` carries the
      exception's message. */
  datatype Result<R, E> = Success(value: R) | Failure(error: E)
}
